=== FILE: README.md ===
# fortiosapi client core, in Dafny

This project models the session and configuration core of `FortiOSAPI`, a
Python client for the REST API of FortiGate appliances (FortiOS). It proves
properties of that model. The client keeps one HTTP session. It logs in with
credentials or with an API token. It builds URLs on two API surfaces:
`/api/v2/cmdb/` (configuration) and `/api/v2/monitor/` (status). Every reply
goes through `formatresponse`. Objects are created or updated with `set`,
which tries a PUT and falls back to a POST. `setoverlayconfig` applies a
whole three-level configuration tree, scalar settings first and table rows
after.

The model is functional. An operation takes a `Wire.Conn` and returns a
`Wire.Step`:

- `Wire.Conn` is the client record (`Session.Client`) plus the log of every
  request sent so far.
- `Wire.Step` is the state afterwards plus the result or the raised error.

Python exceptions leave the object's state behind, and `Step` keeps that
state. For example, a tokenlogin that raises still leaves the session marked
logged.

The appliance is an arbitrary function from the request history to a reply
(`Wire.Appliance`). So every property holds for any server behaviour,
stateful or not.

Other modelling choices:

- A Python dict is a sequence of (key, value) pairs in insertion order.
- `None` is `Values.Null`.
- Truthiness is `Values.Truthy`.
- `urllib.parse.quote` is modelled byte-exactly: UTF-8 encoding, unreserved
  characters and the `safe` set kept, everything else as `%XX` with
  upper-case hex digits. A strict reference decoder (`Percent.Unquote`)
  proves the encoding invertible.

Modules:

- `Results`: Option, Result and the exceptions the code raises.
- `Values`: JSON/YAML values without floats, ordered dicts, `str()` and `json.dumps` keys.
- `Percent`: UTF-8 encoding and decoding, `quote`, and the reference
  unquote.
- `Session`: the client fields, `check_session`, `https` and
  `update_cookie`.
- `Urls`: `cmdb_url`, `mon_url` and the schema query URL.
- `Wire`: requests, replies, the appliance and the request log.
- `Api`: `formatresponse`, `get`, `monitor`, `schema`, `get_mkeyname`,
  `get_mkey`, `post`, `put` and `set`.
- `Auth`: `login`, `tokenlogin` and `logout`.
- `Overlay`: `setoverlayconfig`. The split and the two passes are written
  over an abstract set call. `Overlay.Apply` plugs in `Api.Set`.

Three behaviours of the code are easy to miss, and the model keeps them:

- The `X-CSRFTOKEN` header is refreshed from the cookie jar only during
  login; later replies that set cookies leave the header as it was.
- `logout` clears the cookie jar but leaves the session headers in place.
  That includes the CSRF token and a bearer token.
- Take the tree `{"firewall": {"address": {"name": "addr1", "subnet":
  "10.0.0.0/24"}}}`. Its one path holds two scalar fields. The split deletes
  that path from the table copy twice, so `setoverlayconfig` raises
  `KeyError("address")` before any call and sets nothing
  (`Overlay.TwoScalarFieldsRaise`).

## Model

| member | source | states |
|---|---|---|
| `Session.Init` | fortiosapi/fortiosapi.py:68-82 | a new client is not logged, uses https, has no URL prefix and has no license verdict |
| `Session.CheckSession` | fortiosapi/fortiosapi.py:139-148 | succeeds exactly when logged and the license is not "Invalid"; NotLogged is raised first, then InvalidLicense |
| `Session.Https` | fortiosapi/fortiosapi.py:150-162 | "on" selects https, "off" selects http, any other word changes nothing; no other field changes |
| `Session.StripEnds` | fortiosapi/fortiosapi.py:169 | the stripped token is the cookie value without its first and last character, and empty for a value shorter than two |
| `Session.UpdateCookieIsLastCsrf` | fortiosapi/fortiosapi.py:164-173 | walking the jar forwards gives the headers with X-CSRFTOKEN set to the stripped value of the last CSRF cookie found from the end, or the headers unchanged without one |
| `Session.UpdateCookieFrame` | fortiosapi/fortiosapi.py:164-173 | every header other than X-CSRFTOKEN is left as it was |
| `Session.UpdateCookieSetsHeader` | fortiosapi/fortiosapi.py:164-173 | a jar holding any `ccsrftoken` or `ccsrftoken_*` cookie always leaves the header set |
| `Percent.Utf8RoundTrip` | fortiosapi/fortiosapi.py:219-221 | UTF-8 encoding, the first step of quote, is decoded back to the original string |
| `Percent.QuoteRoundTrip` | fortiosapi/fortiosapi.py:219-221 | for every safe set without '%', percent-decoding quote(s, safe) gives s back |
| `Percent.QuoteEscaped` | fortiosapi/fortiosapi.py:366 | quote(s, safe="") consists only of unreserved characters and %XX triples |
| `Percent.QuoteSegment` | fortiosapi/fortiosapi.py:366 | quote(str(mkey), safe="") holds no reserved character (no '/', no '?') and decodes back to str(mkey) |
| `Urls.ItemSegment` | fortiosapi/fortiosapi.py:364-365 | the item part is empty exactly when mkey is falsy, otherwise "/" followed by the quoted str(mkey) |
| `Urls.ScopeQuery` | fortiosapi/fortiosapi.py:367-372 | no query for a missing or empty vdom, exactly "?global=1" for "global", exactly "?vdom=" followed by the unescaped vdom for any other; a query always opens with '?' |
| `Urls.BuildUrl` | fortiosapi/fortiosapi.py:360-375 | the session check runs first and its error is passed on; a missing prefix is a TypeError; otherwise prefix, surface root, path, "/", name, item part and scope query, in that order |
| `Urls.CmdbUrl` | fortiosapi/fortiosapi.py:360-375 | a configuration URL exists exactly when logged, licensed and a prefix is set, and lies under /api/v2/cmdb/ |
| `Urls.MonUrl` | fortiosapi/fortiosapi.py:377-391 | the same for the monitoring surface, under /api/v2/monitor/ |
| `Urls.ItemUrlReadsBack` | fortiosapi/fortiosapi.py:360-375 | from a built item URL, the query is exactly the scope query and the last path segment decodes to str(mkey) |
| `Urls.CollectionUrlReadsBack` | fortiosapi/fortiosapi.py:360-375 | without mkey, the URL before its query is exactly prefix + root + path + "/" + name |
| `Urls.SchemaUrlAsWritten` | fortiosapi/fortiosapi.py:478-483 | the schema URL as the code builds it: "?action=schema" when vdom is None, "&action=schema" otherwise |
| `Urls.SchemaUrlEmptyVdomHasNoQuery` | fortiosapi/fortiosapi.py:478-483 | with vdom "" the as-written schema URL contains no '?' at all |
| `Urls.SchemaUrl` | fortiosapi/fortiosapi.py:478-483 | the corrected schema URL exists exactly when the collection URL does, with the scope query then action=schema |
| `Urls.SchemaUrlQuery` | fortiosapi/fortiosapi.py:478-483 | the corrected URL's path is the collection path and its query carries action=schema; it equals the as-written URL whenever vdom is None or non-empty |
| `Api.FormatResponse` | fortiosapi/fortiosapi.py:112-137 | raises exactly when the license is "Invalid"; for global scope, a list whose first element is a dict yields that dict with vdom="global" and nothing else changed, anything else the raw reply; otherwise the decoded body or the raw reply |
| `Api.Reformat` | fortiosapi/fortiosapi.py:692-694 | formatting an already formatted result repeats only the license gate and returns it unchanged |
| `Api.Get` | fortiosapi/fortiosapi.py:439-457 | a URL error is raised with no request sent; otherwise exactly one GET on the cmdb URL with the given parameters and the session headers, and the result is formatresponse of the appliance's reply to it |
| `Api.Monitor` | fortiosapi/fortiosapi.py:459-476 | the same on the monitoring URL |
| `Api.Schema` | fortiosapi/fortiosapi.py:478-492 | one GET on the corrected schema URL (see Findings and Left out); the result is the reply's "results" (under element 0 for global) on status 200, the whole body otherwise |
| `Api.GetMkeyName` | fortiosapi/fortiosapi.py:306-321 | the schema's "mkey" when present, False when the schema is a dict without it, TypeError when it is not a dict; it never raises KeyError("mkey"); conversely a returned name is the schema dict's "mkey" entry, or False when it has none |
| `Api.GetMkey` | fortiosapi/fortiosapi.py:323-344 | None when the key name is falsy or missing from the data; the data's value when the name is a field of the data; errors of get_mkeyname passed on; conversely any value other than None is the data's entry under the string key name |
| `Api.PostPayload` | fortiosapi/fortiosapi.py:529-534 | the data is sent unchanged (and nothing is requested) when mkey is falsy; otherwise after get_mkeyname's request, its error or the key's TypeError is raised, or the data gets the key field set to mkey with every other field unchanged |
| `Api.PayloadOfOwnKey` | fortiosapi/fortiosapi.py:529-534 | posting with the key get_mkey read from the data writes that same value back, so the payload is the data unchanged |
| `Api.Post` | fortiosapi/fortiosapi.py:512-543 | an error building the payload or the URL is raised with no POST sent; otherwise exactly one POST of the payload to the collection URL (never the item URL) is sent, with the session's headers, and the result is formatresponse of its reply; on success the body is the data with the key field set to mkey and every other field unchanged, or the data as given when mkey is falsy |
| `Api.ResolveKey` | fortiosapi/fortiosapi.py:587-588 | a truthy mkey is kept with no request; otherwise get_mkey decides it |
| `Api.Put` | fortiosapi/fortiosapi.py:572-594 | key resolution errors and URL errors are raised with no PUT sent; otherwise one PUT of the data, unchanged, on the item URL of the resolved key, whose reply goes through formatresponse |
| `Api.PutNamesDataKey` | fortiosapi/fortiosapi.py:587-591 | a put without mkey targets the object the data names: the last path segment of the PUT URL decodes to the data's value under the schema's key name |
| `Api.Set` | fortiosapi/fortiosapi.py:656-696 | set is put followed by post on http_status 404, 405 or 500 (with the same data and resolved key); errors of the put, and a missing http_status, are raised on the state after the put; any other status returns the put's result |
| `Auth.LoginForm` | fortiosapi/fortiosapi.py:216-224 | the form body carries quote(username) and quote(password), each decoding back to the credential |
| `Auth.LoginCheck` | fortiosapi/fortiosapi.py:198-224 | host and URL prefix (https or http) are recorded, then the credentials are posted to /logincheck |
| `Auth.LoginAccepted` | fortiosapi/fortiosapi.py:228-249 | with an invalid license InvalidLicense is raised with the session already marked logged and no probe sent; otherwise exactly the license probe to /api/v2/monitor/license/status is sent, with the CSRF header copied from the jar, and its reply decides the outcome: a dict with "version" records it and succeeds, "success" without it succeeds logged, any other status raises NotLogged logged out, a dict with neither "version" nor "status" raises KeyError("status"), a non-dict raises; the session's headers afterwards are the ones before with X-CSRFTOKEN set from the jar's last CSRF cookie, for the later calls to reuse |
| `Auth.ReadProbe` | fortiosapi/fortiosapi.py:237-249 | a probe dict with "version" records it and returns True; without one, status "success" sets logged and returns True, any other status clears logged and raises NotLogged, no status raises KeyError("status"); a probe that is not a dict raises; nothing else changes |
| `Auth.Login` | fortiosapi/fortiosapi.py:175-252 | the credentials are posted first; a reply not starting with "1" raises NotLogged and leaves the session unlogged with nothing more sent; an accepted reply with an invalid license raises InvalidLicense; otherwise the license probe is sent and its reply decides the outcome as for LoginAccepted, including KeyError("status") for a dict with neither "version" nor "status"; success implies an accepted reply and a logged, licensed session; after an accepted reply the headers carry X-CSRFTOKEN from the jar's last CSRF cookie |
| `Auth.TokenLogin` | fortiosapi/fortiosapi.py:254-296 | the bearer header and the logged flag are set whatever follows; with an invalid license nothing is sent and InvalidLicense is raised; otherwise exactly one GET to /api/v2/cmdb/system/status with the bearer header, and a status dict (the first element for global) with "version" records it and succeeds, one without raises KeyError, no dict raises NotLogged |
| `Auth.TokenSession` | fortiosapi/fortiosapi.py:268-281 | what tokenlogin sets before its request: host, prefix, bearer header and the logged flag |
| `Auth.RecordVersion` | fortiosapi/fortiosapi.py:289-296 | a dict reply's "version" is recorded and True returned; a dict without it raises KeyError("version"); a reply that is not a dict raises NotLogged; only the version field changes |
| `Auth.Logout` | fortiosapi/fortiosapi.py:346-357 | posts /logout, clears the jar, drops the logged flag and resets the license to "Valid", leaving the headers; afterwards every URL build raises NotLogged; without a prefix it raises TypeError and changes nothing |
| `Overlay.ScalarFields` | fortiosapi/fortiosapi.py:787-792 | the scalar copy of a path holds exactly the fields that are not tables |
| `Overlay.ScalarFieldsAppend` | fortiosapi/fortiosapi.py:787-792 | the scalar copy keeps the fields in their order: splitting a path's fields into two runs and concatenating the copies gives the copy of the whole |
| `Overlay.TableRowsOf` | fortiosapi/fortiosapi.py:820-827 | for a path with no scalar field, the rows are exactly its fields, each a table |
| `Overlay.WalkFieldsCounts` | fortiosapi/fortiosapi.py:787-796 | the split loop over one path raises KeyError(path) exactly when the path has two or more scalar fields; otherwise it keeps the scalars and keeps the path for tables only when it has none |
| `Overlay.KeptPaths` | fortiosapi/fortiosapi.py:794-796 | a path stays in the table copy exactly when none of its fields is a scalar |
| `Overlay.SplitPathsSpec` | fortiosapi/fortiosapi.py:786-796 | the split of one name raises on its first path with two scalars, or yields its scalar part and its table part |
| `Overlay.SplitSpec` | fortiosapi/fortiosapi.py:783-799 | the whole split either raises KeyError on the first path, in iteration order, with two scalar fields, or yields exactly the scalar tree and the table tree |
| `Overlay.SplitSeparates` | fortiosapi/fortiosapi.py:783-799 | after a successful split no scalar path holds a table, and the table tree holds exactly the all-table paths |
| `Overlay.GroupTraceAt` | fortiosapi/fortiosapi.py:812-818 | calls of one loop run in order, each attempt being the set call on the state the previous one left; all but the last succeeded; a loop cut short by break ends on the call that did not succeed |
| `Overlay.RunGroup` | fortiosapi/fortiosapi.py:812-818 | one inner loop runs each call on the state the previous one left and stops at its first unsuccessful call; the final state is what the last call left; restree is the last call's status, or unchanged if none ran |
| `Overlay.PassTraceAt` | fortiosapi/fortiosapi.py:804-832 | every loop of a pass follows its calls from the state the loops before it left, and only the last loop can end on an exception |
| `Overlay.TraceAttempts` | fortiosapi/fortiosapi.py:804-832 | every recorded attempt of a pass is the set call applied to the state it records before it, giving the status and state it records after it |
| `Overlay.RunGroups` | fortiosapi/fortiosapi.py:804-818 | a pass visits every loop unless a call raises, threading the state through; break leaves only the current loop; the pass raises iff a call raised, and that call is the last thing that happened; the flag is the last status |
| `Overlay.PassAttemptsOk` | fortiosapi/fortiosapi.py:804-818 | when no loop of a pass ended on an exception, no call of the pass raised |
| `Overlay.PathCalls` | fortiosapi/fortiosapi.py:805-813 | every non-empty path of the name is set with its own fields and no mkey, and every call is such a one |
| `Overlay.PathCallsAppend` | fortiosapi/fortiosapi.py:805-813 | the scalar pass keeps the order of the paths and skips only empty ones |
| `Overlay.PathCallsFromPaths` | fortiosapi/fortiosapi.py:805-813 | each call of the scalar pass sets one non-empty path of the name with that path's own fields |
| `Overlay.RowCalls` | fortiosapi/fortiosapi.py:822-827 | the table pass calls set(name, path, mkey=k, data=row) once per row, in order |
| `Overlay.LastOutcomeAppend` | fortiosapi/fortiosapi.py:800-835 | the returned flag after two passes is the flag after the second, started from the flag after the first |
| `Overlay.LastOutcomeOfNothing` | fortiosapi/fortiosapi.py:800 | when no set ran, the returned flag is the initial False |
| `Overlay.TwoPasses` | fortiosapi/fortiosapi.py:804-832 | the scalar pass runs in full first; an exception there ends the run with no table call; otherwise the table pass starts from the state and flag it left; the result is an exception iff a set raised, and then that set's |
| `Overlay.SetOverlayConfig` | fortiosapi/fortiosapi.py:766-835 | a failed split makes no call; otherwise the scalar pass runs first and in full (its trace is exactly the scalar pass's, whatever the table pass does) and the table pass starts from the state it left; an exception in the scalar pass skips the table pass; the final state is what the last call left; the result is an exception iff a set raised (and then it is that set's exception, the last thing that ran); otherwise every set returned a status and the result is the status of the last set that ran, False if none ran |
| `Overlay.SetAndCheck` | fortiosapi/fortiosapi.py:813-814 | one set call of the overlay; its status is whether the reply's "status" equals "success"; an error of set is raised, and a missing "status" field raises its lookup error; only the jar and the log change |
| `Overlay.Apply` | fortiosapi/fortiosapi.py:766-835 | on the appliance every recorded attempt is set with its status check on the connection it records; the overlay changes nothing in the session but the cookie jar, and only appends to the request log |
| `Overlay.OneScalarSetting` | fortiosapi/fortiosapi.py:804-818 | {"system": {"global": {"hostname": "fw1"}}} makes exactly one call, set("system", "global", {"hostname": "fw1"}), in the scalar pass and none in the table pass, and returns that call's status |
| `Overlay.TwoScalarFieldsRaise` | fortiosapi/fortiosapi.py:794-796 | two scalar fields under one path raise KeyError on that path, with no call and the state unchanged |
| `Overlay.OneTableRow` | fortiosapi/fortiosapi.py:820-832 | a path holding only a table row is skipped by the scalar pass and set once with the row key as mkey, and the result is that call's status |

## Left out

- TLS verification, client certificates, timeouts, `requests` session re-creation and `close()`: transport concerns, not logic.
- Logging and `debug`: no effect on results.
- `download`, `upload`, `get_name_path_dict`, `execute`, `move`, `delete`, `get_version`, `ssh` and `license`: outside the modelled core.
- JSON decoding: a reply carries its content already decoded (`Wire.Reply.json`), or none when decoding fails.
- Cookie replacement and expiry rules of the HTTP library: cookies a reply sets are appended to the jar. The library's jar iterates by domain, then path, then name, and update_cookie takes the last CSRF cookie in that order; the model takes the last one in the order cookies arrived, which is the same for a single domain and path.
- A transport failure (an exception from the HTTP library): every request gets a reply.
- Non-ASCII bytes in a /logincheck reply: content is text, and a non-ASCII character stands for the decode error.
- `Values.Value`: has no float case, so a JSON or YAML float (a scalar such as `6.0`, an `http_status` or mkey decoded as a float) cannot be represented; Python's `404.0 == 404` in set's retry test, float truthiness and `str(float)` in an item URL are not modelled.
- `Values.KeyText`: renders a list or dict key as "" instead of its Python repr.
- `Values.JsonKey`: models the key json.dumps writes for a non-string key. The dict itself keeps the original object as key, so `False` and `"false"` stay distinct there but not in the model.
- `Api.Schema`: sends the corrected schema URL of the Findings row. For `vdom=""` the code requests `.../cmdb/<path>/<name>&action=schema`, which `Urls.SchemaUrlAsWritten` models; `get_mkeyname`, `get_mkey`, `post`, `put`, `set` and `setoverlayconfig` therefore follow the corrected behaviour in that one case.
- `Api.Post`: does not model that `data[mkeyname] = mkey` also changes the caller's dict.
- `Api.Put`: `data=None` is not modelled; a payload is always a dict.
- `Overlay.SetOverlayConfig`: does not model that the scalar split deletes table fields from the caller's tree.
- `Overlay.Split`: the tree is taken to be name -> path -> fields. Ill-shaped trees, non-string YAML keys and aliased subtrees are not modelled.
- `Overlay.SetOverlayConfig`: the order of paths and rows is the tree's own order. Python's dict order is assumed to match it.

## Findings

| source | as written | input that shows it | evidently intended | confidence | as-written member | corrected member |
|---|---|---|---|---|---|---|
| fortiosapi/fortiosapi.py:480-483 | `schema` picks the separator from whether `vdom` is None, while `cmdb_url` opens a query only for a truthy vdom | `schema(path, name, vdom="")` requests `.../cmdb/<path>/<name>&action=schema` with no '?'; the action becomes part of the object name | choose "?" when `cmdb_url` opened no query and "&" when it did, so that action=schema is always a query parameter | not executed | `Urls.SchemaUrlAsWritten` (`Urls.SchemaUrlEmptyVdomHasNoQuery`) | `Urls.SchemaUrl` (`Urls.SchemaUrlQuery`) |

=== FILE: api.dfy ===
/** The request engine: response normalisation, the GET verbs the session
    code relies on, schema lookup of the identity key (mkey), and the
    post / put / set upsert rule. */
module Api {
  import opened Results
  import opened Values
  import opened Session
  import opened Urls
  import opened Wire
  import opened Percent

  /** What formatresponse hands back: the decoded body, or the raw reply
      when the body could not be decoded or unwrapped. */
  datatype Formatted = Decoded(value: Value) | Raw(reply: Reply)

  /** The dict a global reply carries first, when it is a non-empty list
      whose first element is a dict. */
  function GlobalFirst(reply: Reply): Option<Dict> {
    match reply.json
    case Some(List(items)) => if items != [] && items[0].Table? then Some(items[0].fields) else None
    case _ => None
  }

  /** formatresponse: a recorded invalid license raises before anything is
      decoded; a global reply is unwrapped to its first element and tagged
      vdom = "global"; whatever fails to decode or unwrap comes back raw. */
  function FormatResponse(c: Client, reply: Reply, vdom: Option<string>): (r: Result<Formatted>)
    ensures r.Err? <==> c.license == Invalid
    ensures r.Err? ==> r.error == LicenseRejected
    ensures r.Ok? && vdom == Some("global") && GlobalFirst(reply).None? ==> r.value == Raw(reply)
    ensures r.Ok? && vdom == Some("global") && GlobalFirst(reply).Some? ==>
              && r.value.Decoded? && r.value.value.Table?
              && Lookup(r.value.value.fields, "vdom") == Some(Str("global"))
              && (forall k :: k != "vdom" ==> Lookup(r.value.value.fields, k) == Lookup(GlobalFirst(reply).value, k))
              && Keys(r.value.value.fields) == Keys(SetField(GlobalFirst(reply).value, "vdom", Str("global")))
    ensures r.Ok? && vdom != Some("global") ==>
              r.value == (if reply.json.Some? then Decoded(reply.json.value) else Raw(reply))
  {
    if c.license == Invalid then Err(LicenseRejected)
    else if vdom == Some("global") then
      match GlobalFirst(reply)
      case Some(first) => Ok(Decoded(Table(SetField(first, "vdom", Str("global")))))
      case None => Ok(Raw(reply))
    else
      match reply.json
      case Some(v) => Ok(Decoded(v))
      case None => Ok(Raw(reply))
  }

  /** formatresponse applied a second time, to its own result (as set does
      after its fallback post): the license gate runs again, then reading
      `.content` off a decoded value fails and the bare except returns the
      argument; a raw reply fails to decode again and is returned too. */
  function Reformat(c: Client, f: Formatted): (r: Result<Formatted>)
    ensures r.Err? <==> c.license == Invalid
    ensures r.Ok? ==> r.value == f
  {
    if c.license == Invalid then Err(LicenseRejected) else Ok(f)
  }

  /** `res[k]` on a formatted response; a raw reply is not subscriptable. */
  function Field(f: Formatted, k: string): Result<Value> {
    match f
    case Raw(_) => Err(TypeError)
    case Decoded(v) => Subscript(v, k)
  }

  /** The fields of a formatted response that is a dict. */
  function DictOf(f: Formatted): Option<Dict> {
    match f
    case Decoded(Table(fields)) => Some(fields)
    case _ => None
  }

  /** The fields of a reply whose body decodes to a dict. */
  function ReplyDict(reply: Reply): Option<Dict> {
    match reply.json
    case Some(Table(fields)) => Some(fields)
    case _ => None
  }

  /** The status codes on which set gives up on PUT and creates with POST. */
  predicate RetryStatus(status: Value) {
    status == Int(404) || status == Int(405) || status == Int(500)
  }

  /** get: a GET on the configuration surface. */
  function Get(c: Conn, a: Appliance, path: string, name: string, vdom: Option<string>, mkey: Value, params: Value): (r: Step<Formatted>)
    ensures CmdbUrl(c.client, path, name, vdom, mkey).Err? ==> r == Step(c, Err(CmdbUrl(c.client, path, name, vdom, mkey).error))
    ensures CmdbUrl(c.client, path, name, vdom, mkey).Ok? ==>
              r.conn.sent == c.sent + [Request(GET, CmdbUrl(c.client, path, name, vdom, mkey).value, params, NoBody, c.client.headers)]
    ensures CmdbUrl(c.client, path, name, vdom, mkey).Ok? ==> r.result == FormatResponse(r.conn.client, a(r.conn.sent), vdom)
    ensures Later(c, r.conn)
  {
    match CmdbUrl(c.client, path, name, vdom, mkey)
    case Err(e) => Step(c, Err(e))
    case Ok(url) =>
      var x := Send(c, a, GET, url, params, NoBody);
      Step(x.conn, FormatResponse(x.conn.client, x.reply, vdom))
  }

  /** monitor: a GET on the monitoring surface. */
  function Monitor(c: Conn, a: Appliance, path: string, name: string, vdom: Option<string>, mkey: Value, params: Value): (r: Step<Formatted>)
    ensures MonUrl(c.client, path, name, vdom, mkey).Err? ==> r == Step(c, Err(MonUrl(c.client, path, name, vdom, mkey).error))
    ensures MonUrl(c.client, path, name, vdom, mkey).Ok? ==>
              r.conn.sent == c.sent + [Request(GET, MonUrl(c.client, path, name, vdom, mkey).value, params, NoBody, c.client.headers)]
    ensures MonUrl(c.client, path, name, vdom, mkey).Ok? ==> r.result == FormatResponse(r.conn.client, a(r.conn.sent), vdom)
    ensures Later(c, r.conn)
  {
    match MonUrl(c.client, path, name, vdom, mkey)
    case Err(e) => Step(c, Err(e))
    case Ok(url) =>
      var x := Send(c, a, GET, url, params, NoBody);
      Step(x.conn, FormatResponse(x.conn.client, x.reply, vdom))
  }

  /** The body of a schema reply: its "results" (under the first element
      for global) when the status is 200, the whole body otherwise. */
  function SchemaBody(reply: Reply, vdom: Option<string>): Result<Value> {
    match reply.json
    case None => Err(DecodeError)
    case Some(v) =>
      if reply.statusCode != 200 then Ok(v)
      else if vdom == Some("global") then
        match First(v)
        case Err(e) => Err(e)
        case Ok(first) => Subscript(first, "results")
      else Subscript(v, "results")
  }

  /** schema: a GET of the schema query URL (no formatresponse). */
  function Schema(c: Conn, a: Appliance, path: string, name: string, vdom: Option<string>): (r: Step<Value>)
    ensures SchemaUrl(c.client, path, name, vdom).Err? ==> r == Step(c, Err(SchemaUrl(c.client, path, name, vdom).error))
    ensures SchemaUrl(c.client, path, name, vdom).Ok? ==>
              && r.conn.sent == c.sent + [Request(GET, SchemaUrl(c.client, path, name, vdom).value, Null, NoBody, c.client.headers)]
              && r.result == SchemaBody(a(r.conn.sent), vdom)
    ensures Later(c, r.conn)
  {
    match SchemaUrl(c.client, path, name, vdom)
    case Err(e) => Step(c, Err(e))
    case Ok(url) =>
      var x := Send(c, a, GET, url, Null, NoBody);
      Step(x.conn, SchemaBody(x.reply, vdom))
  }

  /** get_mkeyname: the schema's "mkey", or False when the schema (a dict)
      has none. A schema that is not a dict raises TypeError. */
  function GetMkeyName(c: Conn, a: Appliance, path: string, name: string, vdom: Option<string>): (r: Step<Value>)
    ensures r.conn == Schema(c, a, path, name, vdom).conn
    ensures Later(c, r.conn)
    ensures var s := Schema(c, a, path, name, vdom).result;
            && (s.Err? ==> r.result == Err(s.error))
            && (s.Ok? && s.value.Table? && "mkey" !in Keys(s.value.fields) ==> r.result == Ok(Bool(false)))
            && (s.Ok? && s.value.Table? && "mkey" in Keys(s.value.fields) ==> r.result == Ok(Lookup(s.value.fields, "mkey").value))
            && (s.Ok? && !s.value.Table? ==> r.result == Err(TypeError))
    ensures r.result != Err(KeyError("mkey"))
    ensures r.result.Ok? ==>
              var s := Schema(c, a, path, name, vdom).result;
              && s.Ok? && s.value.Table?
              && (Lookup(s.value.fields, "mkey") == Some(r.result.value)
                  || (Lookup(s.value.fields, "mkey").None? && r.result.value == Bool(false)))
  {
    var s := Schema(c, a, path, name, vdom);
    match s.result
    case Err(e) => Step(s.conn, Err(e))
    case Ok(Table(fields)) =>
      (match Lookup(fields, "mkey")
       case Some(k) => Step(s.conn, Ok(k))
       case None => Step(s.conn, Ok(Bool(false))))
    case Ok(_) => Step(s.conn, Err(TypeError))
  }

  /** `data[keyname]` with KeyError turned into None: a string name is looked
      up, any other hashable name is absent (the data's keys are strings),
      a list or dict name is unhashable. */
  function DataLookup(data: Dict, keyname: Value): Result<Value> {
    match keyname
    case Str(k) => Ok(match Lookup(data, k) case Some(v) => v case None => Null)
    case List(_) => Err(TypeError)
    case Table(_) => Err(TypeError)
    case _ => Ok(Null)
  }

  /** get_mkey: the identity value of `data`, or None when the schema names
      no key or the data lacks the field. */
  function GetMkey(c: Conn, a: Appliance, path: string, name: string, data: Dict, vdom: Option<string>): (r: Step<Value>)
    ensures r.conn == GetMkeyName(c, a, path, name, vdom).conn
    ensures Later(c, r.conn)
    ensures var n := GetMkeyName(c, a, path, name, vdom).result;
            && (n.Err? ==> r.result == Err(n.error))
            && (n.Ok? && !Truthy(n.value) ==> r.result == Ok(Null))
            && (n.Ok? && n.value.Str? && n.value.s != [] && n.value.s !in Keys(data) ==> r.result == Ok(Null))
            && (n.Ok? && n.value.Str? && n.value.s != [] && n.value.s in Keys(data) ==> r.result == Ok(Lookup(data, n.value.s).value))
            && (n.Ok? && !n.value.List? && !n.value.Table? ==> r.result.Ok?)
    ensures r.result.Ok? && r.result.value != Null ==>
              var n := GetMkeyName(c, a, path, name, vdom).result;
              n.Ok? && n.value.Str? && (n.value.s, r.result.value) in data
  {
    var n := GetMkeyName(c, a, path, name, vdom);
    match n.result
    case Err(e) => Step(n.conn, Err(e))
    case Ok(keyname) =>
      if !Truthy(keyname) then Step(n.conn, Ok(Null))
      else Step(n.conn, DataLookup(data, keyname))
  }

  /** The payload post sends: with a truthy mkey, data[mkeyname] = mkey
      (whatever the data held there before). */
  function PostPayload(c: Conn, a: Appliance, path: string, name: string, data: Dict, vdom: Option<string>, mkey: Value): (r: Step<Dict>)
    ensures !Truthy(mkey) ==> r == Step(c, Ok(data))
    ensures Truthy(mkey) ==> r.conn == GetMkeyName(c, a, path, name, vdom).conn
    ensures Truthy(mkey) ==>
              var n := GetMkeyName(c, a, path, name, vdom).result;
              && (n.Err? ==> r.result == Err(n.error))
              && (n.Ok? && JsonKey(n.value).Err? ==> r.result == Err(JsonKey(n.value).error))
              && (n.Ok? && JsonKey(n.value).Ok? ==>
                    && r.result.Ok?
                    && Lookup(r.result.value, JsonKey(n.value).value) == Some(mkey)
                    && (forall k :: k != JsonKey(n.value).value ==> Lookup(r.result.value, k) == Lookup(data, k)))
    ensures Later(c, r.conn)
  {
    if !Truthy(mkey) then Step(c, Ok(data))
    else
      var n := GetMkeyName(c, a, path, name, vdom);
      match n.result
      case Err(e) => Step(n.conn, Err(e))
      case Ok(keyname) =>
        match JsonKey(keyname)
        case Err(e) => Step(n.conn, Err(e))
        case Ok(k) => Step(n.conn, Ok(SetField(data, k, mkey)))
  }

  /** Posting with the key get_mkey took from the data itself writes that
      key back unchanged: the payload is the data. */
  lemma PayloadOfOwnKey(c: Conn, a: Appliance, path: string, name: string, data: Dict, vdom: Option<string>, k: string)
    requires GetMkeyName(c, a, path, name, vdom).result == Ok(Str(k))
    requires k in Keys(data) && Truthy(Lookup(data, k).value)
    ensures PostPayload(c, a, path, name, data, vdom, Lookup(data, k).value).result == Ok(data)
  {
    SetFieldPresent(data, k);
  }

  /** post: a POST of the (key-injected) payload to the collection URL. */
  function Post(c: Conn, a: Appliance, path: string, name: string, data: Dict, vdom: Option<string>, mkey: Value, params: Value): (r: Step<Formatted>)
    ensures Later(c, r.conn)
    ensures var p := PostPayload(c, a, path, name, data, vdom, mkey);
            && (p.result.Err? ==> r == Step(p.conn, Err(p.result.error)))
            && (p.result.Ok? && CmdbUrl(p.conn.client, path, name, vdom, Null).Err? ==>
                  r == Step(p.conn, Err(CmdbUrl(p.conn.client, path, name, vdom, Null).error)))
            && (p.result.Ok? && CmdbUrl(p.conn.client, path, name, vdom, Null).Ok? ==>
                  && r.conn.sent == p.conn.sent + [Request(POST, CmdbUrl(p.conn.client, path, name, vdom, Null).value, params, Json(p.result.value), p.conn.client.headers)]
                  && r.result == FormatResponse(r.conn.client, a(r.conn.sent), vdom))
    ensures r.result.Ok? ==>
              && |r.conn.sent| > 0
              && var req := r.conn.sent[|r.conn.sent| - 1];
              && req.verb == POST
              && CmdbUrl(r.conn.client, path, name, vdom, Null).Ok?
              && req.url == CmdbUrl(r.conn.client, path, name, vdom, Null).value
              && req.body.Json?
              && (!Truthy(mkey) ==> req.body.fields == data && |r.conn.sent| == |c.sent| + 1)
              && (Truthy(mkey) ==>
                    var n := GetMkeyName(c, a, path, name, vdom).result;
                    && n.Ok? && JsonKey(n.value).Ok?
                    && Lookup(req.body.fields, JsonKey(n.value).value) == Some(mkey)
                    && (forall k :: k != JsonKey(n.value).value ==> Lookup(req.body.fields, k) == Lookup(data, k)))
  {
    var p := PostPayload(c, a, path, name, data, vdom, mkey);
    match p.result
    case Err(e) => Step(p.conn, Err(e))
    case Ok(payload) =>
      match CmdbUrl(p.conn.client, path, name, vdom, Null)
      case Err(e) => Step(p.conn, Err(e))
      case Ok(url) =>
        var x := Send(p.conn, a, POST, url, params, Json(payload));
        Step(x.conn, FormatResponse(x.conn.client, x.reply, vdom))
  }

  /** The key put and set work with: a truthy mkey as given, otherwise the
      one get_mkey finds in the data. */
  function ResolveKey(c: Conn, a: Appliance, path: string, name: string, data: Dict, mkey: Value, vdom: Option<string>): (r: Step<Value>)
    ensures Truthy(mkey) ==> r == Step(c, Ok(mkey))
    ensures !Truthy(mkey) ==> r == GetMkey(c, a, path, name, data, vdom)
    ensures Later(c, r.conn)
  {
    if Truthy(mkey) then Step(c, Ok(mkey)) else GetMkey(c, a, path, name, data, vdom)
  }

  /** put: a PUT of `data` on the item URL of the resolved key. */
  function Put(c: Conn, a: Appliance, path: string, name: string, vdom: Option<string>, mkey: Value, params: Value, data: Dict): (r: Step<Formatted>)
    ensures Later(c, r.conn)
    ensures var k := ResolveKey(c, a, path, name, data, mkey, vdom);
            && (k.result.Err? ==> r == Step(k.conn, Err(k.result.error)))
            && (k.result.Ok? && CmdbUrl(k.conn.client, path, name, vdom, k.result.value).Err? ==>
                  r == Step(k.conn, Err(CmdbUrl(k.conn.client, path, name, vdom, k.result.value).error)))
            && (k.result.Ok? && CmdbUrl(k.conn.client, path, name, vdom, k.result.value).Ok? ==>
                  r.result == FormatResponse(r.conn.client, a(r.conn.sent), vdom))
    ensures var k := ResolveKey(c, a, path, name, data, mkey, vdom);
            r.result.Ok? ==>
              && k.result.Ok?
              && CmdbUrl(k.conn.client, path, name, vdom, k.result.value).Ok?
              && r.conn.sent == k.conn.sent + [Request(PUT, CmdbUrl(k.conn.client, path, name, vdom, k.result.value).value, params, Json(data), k.conn.client.headers)]
  {
    var k := ResolveKey(c, a, path, name, data, mkey, vdom);
    match k.result
    case Err(e) => Step(k.conn, Err(e))
    case Ok(key) =>
      match CmdbUrl(k.conn.client, path, name, vdom, key)
      case Err(e) => Step(k.conn, Err(e))
      case Ok(url) =>
        var x := Send(k.conn, a, PUT, url, params, Json(data));
        Step(x.conn, FormatResponse(x.conn.client, x.reply, vdom))
  }

  /** put without an mkey updates the object the data names: the last path
      segment of the PUT URL decodes to the value of the data's identity
      field, as the schema names it. */
  lemma PutNamesDataKey(c: Conn, a: Appliance, path: string, name: string, vdom: Option<string>, params: Value, data: Dict, k: string)
    requires c.client.urlPrefix.Some?
    requires '?' !in c.client.urlPrefix.value + "/api/v2/cmdb/" + path + "/" + name
    requires GetMkeyName(c, a, path, name, vdom).result == Ok(Str(k)) && k != []
    requires k in Keys(data) && Truthy(Lookup(data, k).value)
    requires Put(c, a, path, name, vdom, Null, params, data).result.Ok?
    ensures var sent := Put(c, a, path, name, vdom, Null, params, data).conn.sent;
            && |sent| > 0
            && var req := sent[|sent| - 1];
            && req.verb == PUT && req.body == Json(data)
            && Unquote(LastSegment(req.url[..QueryStart(req.url)])) == Some(KeyText(Lookup(data, k).value))
  {
    var v := Lookup(data, k).value;
    var key := ResolveKey(c, a, path, name, data, Null, vdom);
    assert key.result == Ok(v);
    var cl := key.conn.client;
    assert cl.urlPrefix == c.client.urlPrefix;
    var put := Put(c, a, path, name, vdom, Null, params, data);
    var url := CmdbUrl(cl, path, name, vdom, v);
    assert put.conn.sent == key.conn.sent + [Request(PUT, url.value, params, Json(data), cl.headers)];
    assert url == BuildUrl(cl, CmdbApi, path, name, vdom, v);
    ItemUrlReadsBack(cl, CmdbApi, path, name, vdom, v);
  }

  /** set: PUT on the item; when the reply's http_status is 404, 405 or 500,
      POST the same data and key instead and return that; any other status
      is returned as the PUT left it. */
  function Set(c: Conn, a: Appliance, path: string, name: string, data: Dict, mkey: Value, vdom: Option<string>, params: Value): (r: Step<Formatted>)
    ensures Later(c, r.conn)
    ensures var put := Put(c, a, path, name, vdom, mkey, params, data);
            var key := ResolveKey(c, a, path, name, data, mkey, vdom).result;
            && (put.result.Err? ==> r == put)
            && (put.result.Ok? && Field(put.result.value, "http_status").Err? ==>
                  r == Step(put.conn, Err(Field(put.result.value, "http_status").error)))
            && (put.result.Ok? && Field(put.result.value, "http_status").Ok? && RetryStatus(Field(put.result.value, "http_status").value) ==>
                  key.Ok? && r == Post(put.conn, a, path, name, data, vdom, key.value, Null))
            && (put.result.Ok? && Field(put.result.value, "http_status").Ok? && !RetryStatus(Field(put.result.value, "http_status").value) ==>
                  r == put)
  {
    var k := ResolveKey(c, a, path, name, data, mkey, vdom);
    ghost var put := Put(c, a, path, name, vdom, mkey, params, data);
    match k.result
    case Err(e) => Step(k.conn, Err(e))
    case Ok(key) =>
      match CmdbUrl(k.conn.client, path, name, vdom, key)
      case Err(e) => Step(k.conn, Err(e))
      case Ok(url) =>
        var x := Send(k.conn, a, PUT, url, params, Json(data));
        assert put == Step(x.conn, FormatResponse(x.conn.client, x.reply, vdom));
        match FormatResponse(x.conn.client, x.reply, vdom)
        case Err(e) => Step(x.conn, Err(e))
        case Ok(res) => Fallback(x.conn, a, path, name, data, vdom, key, res)
  }

  /** The part of set after its PUT: retry as a POST on 404, 405 or 500. */
  function Fallback(x: Conn, a: Appliance, path: string, name: string, data: Dict, vdom: Option<string>, key: Value, res: Formatted): (r: Step<Formatted>)
    requires x.client.license != Invalid
    ensures Later(x, r.conn)
    ensures Field(res, "http_status").Err? ==> r == Step(x, Err(Field(res, "http_status").error))
    ensures Field(res, "http_status").Ok? && RetryStatus(Field(res, "http_status").value) ==>
              r == Post(x, a, path, name, data, vdom, key, Null)
    ensures Field(res, "http_status").Ok? && !RetryStatus(Field(res, "http_status").value) ==>
              r == Step(x, Ok(res))
  {
    match Field(res, "http_status")
    case Err(e) => Step(x, Err(e))
    case Ok(status) =>
      if RetryStatus(status) then
        var p := Post(x, a, path, name, data, vdom, key, Null);
        match p.result
        case Err(e) => p
        case Ok(created) => Step(p.conn, Reformat(p.conn.client, created))
      else Step(x, Ok(res))
  }
}

=== FILE: auth.dfy ===
/** Logging in and out: the effects of login, tokenlogin and logout on the
    session's logged flag, license state, headers, cookies and URL prefix. */
module Auth {
  import opened Results
  import opened Values
  import opened Session
  import opened Percent
  import opened Urls
  import opened Wire
  import opened Api

  function Prefix(https: bool, host: string): string {
    (if https then "https://" else "http://") + host
  }

  /** The url-encoded credentials login posts (quote's default safe "/"). */
  function LoginForm(username: string, password: string): (f: string)
    ensures f == "username=" + Quote(username, "/") + "&secretkey=" + Quote(password, "/") + "&ajax=1"
    ensures Unquote(Quote(username, "/")) == Some(username) && Unquote(Quote(password, "/")) == Some(password)
  {
    QuoteRoundTrip(username, "/");
    QuoteRoundTrip(password, "/");
    "username=" + Quote(username, "/") + "&secretkey=" + Quote(password, "/") + "&ajax=1"
  }

  predicate IsAscii(s: string) {
    forall i :: 0 <= i < |s| ==> (s[i] as int) < 0x80
  }

  /** The first half of login: record host and URL prefix, post the
      credentials to /logincheck. */
  function LoginCheck(c: Conn, a: Appliance, host: string, username: string, password: string): (x: Exchange)
    ensures x.conn.client == c.client.(host := Some(host), urlPrefix := Some(Prefix(c.client.https, host)), cookies := x.conn.client.cookies)
    ensures x.conn.sent == c.sent + [Request(POST, Prefix(c.client.https, host) + "/logincheck", Null, Form(LoginForm(username, password)), c.client.headers)]
    ensures x.conn.client.cookies == c.client.cookies + x.reply.setCookies
    ensures x.reply == a(x.conn.sent)
  {
    var prefix := Prefix(c.client.https, host);
    var c1 := c.(client := c.client.(host := Some(host), urlPrefix := Some(prefix)));
    Send(c1, a, POST, prefix + "/logincheck", Null, Form(LoginForm(username, password)))
  }

  /** The license probe login runs once the credentials are accepted. */
  function ProbeParams(vdom: string): Value {
    Str("{ vdom = " + vdom + " }")
  }

  /** The license probe request login sends once the credentials are
      accepted, with the CSRF header taken from the jar. */
  function ProbeRequest(cl: Client, vdom: string): Request
    requires cl.urlPrefix.Some?
  {
    Request(GET, cl.urlPrefix.value + "/api/v2/monitor/license/status", ProbeParams(vdom), NoBody, WithCsrf(cl.headers, LastCsrf(cl.cookies)))
  }

  /** How login ends, given the reply to its license probe: a dict with
      "version" succeeds and records it; without "version", status "success"
      succeeds and keeps the session logged, any other status raises
      NotLogged with the session logged out, no status at all raises
      KeyError("status"); a reply that is not a dict raises. */
  predicate ProbeOutcome(r: Step<bool>, p: Reply) {
    && (ReplyDict(p).None? ==> r.result.Err?)
    && (ReplyDict(p).Some? ==>
          var fs := ReplyDict(p).value;
          && (Lookup(fs, "version").Some? ==>
                r.result == Ok(true) && r.conn.client.logged && r.conn.client.version == Lookup(fs, "version").value)
          && (Lookup(fs, "version").None? && Lookup(fs, "status") == Some(Str("success")) ==>
                r.result == Ok(true) && r.conn.client.logged)
          && (Lookup(fs, "version").None? && Lookup(fs, "status").Some? && Lookup(fs, "status") != Some(Str("success")) ==>
                r.result == Err(NotLogged) && !r.conn.client.logged)
          && (Lookup(fs, "version").None? && Lookup(fs, "status").None? ==>
                r.result == Err(KeyError("status"))))
  }

  /** The second half of login, once /logincheck answered "1...": copy the
      CSRF cookie to the headers, mark the session logged and probe the
      license status; the probe's reply decides the outcome. */
  function LoginAccepted(x: Conn, a: Appliance, vdom: string): (r: Step<bool>)
    requires x.client.urlPrefix.Some?
    ensures r.conn.client.urlPrefix == x.client.urlPrefix && r.conn.client.host == x.client.host
    ensures r.conn.client.license == x.client.license && r.conn.client.https == x.client.https
    ensures x.client.license == Invalid ==> r.result == Err(InvalidLicense) && r.conn.sent == x.sent && r.conn.client.logged
    ensures x.client.license != Invalid ==> r.conn.sent == x.sent + [ProbeRequest(x.client, vdom)]
    ensures x.client.license != Invalid ==> ProbeOutcome(r, a(x.sent + [ProbeRequest(x.client, vdom)]))
    ensures r.result.Ok? ==> r.result.value && r.conn.client.logged && CheckSession(r.conn.client).Ok?
    ensures r.conn.client.headers == WithCsrf(x.client.headers, LastCsrf(x.client.cookies))
  {
    var cl := x.client;
    UpdateCookieIsLastCsrf(cl.cookies, cl.headers);
    var c2 := x.(client := cl.(headers := UpdateCookie(cl.cookies, cl.headers), logged := true));
    ProbeUrl(c2.client);
    var probe := Monitor(c2, a, "license", "status", None, Null, ProbeParams(vdom));
    ReadProbe(probe)
  }

  /** What login makes of the license probe's reply: a dict carrying
      "version" records it and succeeds; without "version", a "success"
      status keeps the session logged and succeeds, any other status logs
      it out and raises NotLogged, and no status at all raises KeyError. A
      reply that is not a dict fails when it is decoded again. */
  function ReadProbe(probe: Step<Formatted>): (r: Step<bool>)
    ensures r.conn.sent == probe.conn.sent
    ensures r.conn.client == probe.conn.client.(version := r.conn.client.version, logged := r.conn.client.logged)
    ensures probe.result.Err? ==> r == Step(probe.conn, Err(probe.result.error))
    ensures probe.result.Ok? && DictOf(probe.result.value).None? ==> r.conn == probe.conn && r.result.Err?
    ensures probe.result.Ok? && DictOf(probe.result.value).Some? ==>
              var fs := DictOf(probe.result.value).value;
              && (Lookup(fs, "version").Some? ==>
                    r == Step(probe.conn.(client := probe.conn.client.(version := Lookup(fs, "version").value)), Ok(true)))
              && (Lookup(fs, "version").None? && Lookup(fs, "status") == Some(Str("success")) ==>
                    r == Step(probe.conn.(client := probe.conn.client.(logged := true)), Ok(true)))
              && (Lookup(fs, "version").None? && Lookup(fs, "status").Some? && Lookup(fs, "status") != Some(Str("success")) ==>
                    r == Step(probe.conn.(client := probe.conn.client.(logged := false)), Err(NotLogged)))
              && (Lookup(fs, "version").None? && Lookup(fs, "status").None? ==>
                    r == Step(probe.conn, Err(KeyError("status"))))
  {
    var after := probe.conn;
    match probe.result
    case Err(e) => Step(after, Err(e))
    case Ok(Raw(_)) => Step(after, Err(DecodeError))
    case Ok(Decoded(Table(fields))) =>
      (match Lookup(fields, "version")
       case Some(v) => Step(after.(client := after.client.(version := v)), Ok(true))
       case None =>
         match Lookup(fields, "status")
         case None => Step(after, Err(KeyError("status")))
         case Some(st) =>
           if st == Str("success") then Step(after.(client := after.client.(logged := true)), Ok(true))
           else Step(after.(client := after.client.(logged := false)), Err(NotLogged)))
    case Ok(Decoded(_)) => Step(after, Err(AttributeError))
  }

  lemma ProbeUrl(c: Client)
    ensures MonUrl(c, "license", "status", None, Null).Ok? ==>
              MonUrl(c, "license", "status", None, Null).value == c.urlPrefix.value + "/api/v2/monitor/license/status"
  {
  }

  lemma StatusUrl(c: Client, vdom: Option<string>)
    ensures CmdbUrl(c, "system", "status", vdom, Null).Ok? <==> c.logged && c.license != Invalid && c.urlPrefix.Some?
    ensures CmdbUrl(c, "system", "status", vdom, Null).Ok? ==>
              CmdbUrl(c, "system", "status", vdom, Null).value == c.urlPrefix.value + "/api/v2/cmdb/system/status" + ScopeQuery(vdom)
  {
  }

  /** The /logincheck reply accepts the credentials: ASCII text whose first
      character is "1". */
  predicate Accepted(reply: Reply) {
    IsAscii(reply.content) && reply.content != [] && reply.content[0] == '1'
  }

  /** login: a /logincheck reply whose first character is "1" accepts the
      credentials and the license probe decides the outcome; any other first
      character raises NotLogged; an empty or non-ASCII reply raises before
      the logged flag is touched. */
  function Login(c: Conn, a: Appliance, host: string, username: string, password: string, vdom: string): (r: Step<bool>)
    ensures var x := LoginCheck(c, a, host, username, password);
            && r.conn.client.urlPrefix == Some(Prefix(c.client.https, host))
            && r.conn.client.host == Some(host)
            && r.conn.client.license == c.client.license
            && r.conn.client.https == c.client.https
            && |r.conn.sent| > |c.sent|
            && r.conn.sent[..|c.sent| + 1] == x.conn.sent
    ensures var x := LoginCheck(c, a, host, username, password);
            IsAscii(x.reply.content) && x.reply.content != [] && x.reply.content[0] != '1' ==>
              r.result == Err(NotLogged) && !r.conn.client.logged && r.conn.sent == x.conn.sent
    ensures var x := LoginCheck(c, a, host, username, password);
            Accepted(x.reply) && c.client.license == Invalid ==>
              r.result == Err(InvalidLicense) && r.conn.client.logged && r.conn.sent == x.conn.sent
    ensures var x := LoginCheck(c, a, host, username, password);
            Accepted(x.reply) && c.client.license != Invalid ==>
              && r.conn.sent == x.conn.sent + [ProbeRequest(x.conn.client, vdom)]
              && ProbeOutcome(r, a(x.conn.sent + [ProbeRequest(x.conn.client, vdom)]))
    ensures var x := LoginCheck(c, a, host, username, password);
            Accepted(x.reply) ==> r.conn.client.headers == WithCsrf(x.conn.client.headers, LastCsrf(x.conn.client.cookies))
    ensures r.result.Ok? ==>
              && r.result.value
              && r.conn.client.logged
              && CheckSession(r.conn.client).Ok?
              && Accepted(LoginCheck(c, a, host, username, password).reply)
  {
    var x := LoginCheck(c, a, host, username, password);
    var content := x.reply.content;
    if !IsAscii(content) then Step(x.conn, Err(DecodeError))
    else if content == [] then Step(x.conn, Err(IndexError))
    else if content[0] != '1' then Step(x.conn.(client := x.conn.client.(logged := false)), Err(NotLogged))
    else
      var r := LoginAccepted(x.conn, a, vdom);
      assert r.conn.sent[..|c.sent| + 1] == r.conn.sent[..|x.conn.sent|];
      r
  }

  /** The dict tokenlogin reads the version from: the reply's first element
      for the global scope, the reply itself otherwise. */
  function StatusDict(p: Reply, vdom: Option<string>): Option<Dict> {
    if vdom == Some("global") then GlobalFirst(p) else ReplyDict(p)
  }

  /** How tokenlogin ends, given that dict: its "version" is recorded and
      the call succeeds; a dict without one raises KeyError; no dict at all
      raises NotLogged. */
  predicate VersionOutcome(r: Step<bool>, fs: Option<Dict>) {
    && (fs.None? ==> r.result == Err(NotLogged))
    && (fs.Some? && Lookup(fs.value, "version").Some? ==>
          r.result == Ok(true) && r.conn.client.version == Lookup(fs.value, "version").value)
    && (fs.Some? && Lookup(fs.value, "version").None? ==> r.result == Err(KeyError("version")))
  }

  /** tokenlogin: the bearer header and the logged flag are set before any
      request, then system/status is read with a GET for the version. A
      reply that is not a dict raises NotLogged, but the session stays
      marked logged. */
  function TokenLogin(c: Conn, a: Appliance, host: string, token: string, vdom: Option<string>): (r: Step<bool>)
    ensures r.conn.client.logged
    ensures r.conn.client.urlPrefix == Some(Prefix(c.client.https, host))
    ensures "Authorization" in r.conn.client.headers && r.conn.client.headers["Authorization"] == "Bearer " + token
    ensures r.conn.client.license == c.client.license
    ensures c.client.license == Invalid ==> r.result == Err(InvalidLicense) && r.conn.sent == c.sent
    ensures c.client.license != Invalid ==>
              r.conn.sent == c.sent + [Request(GET, Prefix(c.client.https, host) + "/api/v2/cmdb/system/status" + ScopeQuery(vdom),
                                               Null, NoBody, TokenSession(c.client, host, token).headers)]
    ensures c.client.license != Invalid ==> VersionOutcome(r, StatusDict(a(r.conn.sent), vdom))
    ensures r.result.Ok? ==> r.result.value && CheckSession(r.conn.client).Ok?
  {
    var cl := TokenSession(c.client, host, token);
    StatusUrl(cl, vdom);
    var g := Get(Conn(cl, c.sent), a, "system", "status", vdom, Null, Null);
    RecordVersion(g)
  }

  /** What tokenlogin sets before its first request. */
  function TokenSession(c: Client, host: string, token: string): (r: Client)
    ensures r.logged && r.urlPrefix == Some(Prefix(c.https, host)) && r.license == c.license
    ensures "Authorization" in r.headers && r.headers["Authorization"] == "Bearer " + token
  {
    c.(host := Some(host), headers := c.headers["Authorization" := "Bearer " + token],
       logged := true, urlPrefix := Some(Prefix(c.https, host)))
  }

  /** The version read of tokenlogin: a dict's "version" is recorded (a dict
      without one raises KeyError), and a reply that cannot be subscripted
      by a string, which Python reports as TypeError, becomes NotLogged. */
  function RecordVersion(g: Step<Formatted>): (r: Step<bool>)
    ensures r.conn.sent == g.conn.sent
    ensures r.conn.client == g.conn.client.(version := r.conn.client.version)
    ensures g.result.Err? ==> r == Step(g.conn, Err(g.result.error))
    ensures g.result.Ok? && DictOf(g.result.value).None? ==> r == Step(g.conn, Err(NotLogged))
    ensures g.result.Ok? && DictOf(g.result.value).Some? ==>
              var fs := DictOf(g.result.value).value;
              && (Lookup(fs, "version").Some? ==>
                    r == Step(g.conn.(client := g.conn.client.(version := Lookup(fs, "version").value)), Ok(true)))
              && (Lookup(fs, "version").None? ==> r == Step(g.conn, Err(KeyError("version"))))
  {
    match g.result
    case Err(e) => Step(g.conn, Err(e))
    case Ok(Decoded(Table(fields))) =>
      (match Lookup(fields, "version")
       case Some(v) => Step(g.conn.(client := g.conn.client.(version := v)), Ok(true))
       case None => Step(g.conn, Err(KeyError("version"))))
    case Ok(_) => Step(g.conn, Err(NotLogged))
  }

  /** logout: post to /logout, clear the jar, drop the logged flag and reset
      the license to "Valid". The headers (CSRF token, bearer token) stay. */
  function Logout(c: Conn, a: Appliance): (r: Step<()>)
    ensures c.client.urlPrefix.None? ==> r == Step(c, Err(TypeError))
    ensures c.client.urlPrefix.Some? ==>
              && r.result.Ok?
              && r.conn.client == c.client.(logged := false, license := Valid, cookies := [])
              && r.conn.sent == c.sent + [Request(POST, c.client.urlPrefix.value + "/logout", Null, NoBody, c.client.headers)]
    ensures r.result.Ok? ==> forall surface, path, name, vdom, mkey ::
              BuildUrl(r.conn.client, surface, path, name, vdom, mkey) == Err(NotLogged)
  {
    match c.client.urlPrefix
    case None => Step(c, Err(TypeError))
    case Some(prefix) =>
      var x := Send(c, a, POST, prefix + "/logout", Null, NoBody);
      Step(x.conn.(client := x.conn.client.(cookies := [], logged := false, license := Valid)), Ok(()))
  }
}

=== FILE: overlay.dfy ===
/** setoverlayconfig: apply a three-level configuration tree
    (name -> path -> field -> value) with set calls, first every scalar
    setting, then every table row.

    The tree is split into a scalar tree and a table tree; a path is kept
    in the table tree only when none of its fields is a scalar, and a path
    with two scalar fields raises KeyError while splitting. The passes are
    written once over an abstract `run` (one set call and its status
    check), and `Apply` instantiates them with `Api.Set`. Besides the
    boolean the source returns, the passes return the calls they made, so
    that what ran can be stated. */
module Overlay {
  import opened Results
  import opened Values
  import opened Wire
  import opened Api

  /** One `[name]` level: path -> fields. */
  type PathMap = seq<(string, Dict)>
  /** name -> path -> fields, as setoverlayconfig receives it. */
  type Tree = seq<(string, PathMap)>
  /** Table rows: identity value -> row fields. */
  type Rows = seq<(string, Dict)>
  type TableTree = seq<(string, seq<(string, Rows)>)>

  // ------------------------------------------------------------------ split

  function ScalarCount(fs: Dict): nat {
    if fs == [] then 0 else (if fs[0].1.Table? then 0 else 1) + ScalarCount(fs[1..])
  }

  /** The fields that are not tables, in order. */
  function ScalarFields(fs: Dict): (r: Dict)
    ensures |r| == ScalarCount(fs)
    ensures forall i :: 0 <= i < |r| ==> !r[i].1.Table? && r[i] in fs
    ensures forall i :: 0 <= i < |fs| && !fs[i].1.Table? ==> fs[i] in r
  {
    if fs == [] then []
    else if fs[0].1.Table? then ScalarFields(fs[1..])
    else [fs[0]] + ScalarFields(fs[1..])
  }

  /** The scalar copy keeps the order of the fields. */
  lemma {:induction false} ScalarFieldsAppend(a: Dict, b: Dict)
    ensures ScalarFields(a + b) == ScalarFields(a) + ScalarFields(b)
    decreases |a|
  {
    if a == [] {
      assert a + b == b;
    } else {
      assert (a + b)[0] == a[0] && (a + b)[1..] == a[1..] + b;
      ScalarFieldsAppend(a[1..], b);
    }
  }

  /** The table-valued fields as rows, in order. */
  function TableRowsOf(fs: Dict): (r: Rows)
    ensures ScalarCount(fs) == 0 ==> |r| == |fs|
    ensures ScalarCount(fs) == 0 ==> forall i :: 0 <= i < |fs| ==> fs[i] == (r[i].0, Table(r[i].1))
  {
    if fs == [] then []
    else if fs[0].1.Table? then [(fs[0].0, fs[0].1.fields)] + TableRowsOf(fs[1..])
    else TableRowsOf(fs[1..])
  }

  /** The innermost split loop over one [name][path]: a table field is
      deleted from the scalar copy; a scalar field deletes the whole path
      from the table copy, which raises KeyError once it is already gone. */
  function WalkFields(fs: Dict, path: string, scalars: Dict, inTables: bool): Result<(Dict, bool)>
    decreases |fs|
  {
    if fs == [] then Ok((scalars, inTables))
    else if fs[0].1.Table? then WalkFields(fs[1..], path, scalars, inTables)
    else if !inTables then Err(KeyError(path))
    else WalkFields(fs[1..], path, scalars + [fs[0]], false)
  }

  lemma {:induction false} WalkFieldsCounts(fs: Dict, path: string, scalars: Dict, inTables: bool)
    ensures WalkFields(fs, path, scalars, inTables)
         == if ScalarCount(fs) >= (if inTables then 2 else 1) then Err(KeyError(path))
            else Ok((scalars + ScalarFields(fs), inTables && ScalarCount(fs) == 0))
    decreases |fs|
  {
    if fs == [] {
      assert scalars + [] == scalars;
    } else if fs[0].1.Table? {
      WalkFieldsCounts(fs[1..], path, scalars, inTables);
    } else if inTables {
      WalkFieldsCounts(fs[1..], path, scalars + [fs[0]], false);
      assert scalars + [fs[0]] + ScalarFields(fs[1..]) == scalars + ScalarFields(fs);
    }
  }

  function SplitPaths(ps: PathMap): Result<(PathMap, seq<(string, Rows)>)>
    decreases |ps|
  {
    if ps == [] then Ok(([], []))
    else
      match WalkFields(ps[0].1, ps[0].0, [], true)
      case Err(e) => Err(e)
      case Ok((scalars, keep)) =>
        match SplitPaths(ps[1..])
        case Err(e) => Err(e)
        case Ok((sp, tp)) =>
          Ok(([(ps[0].0, scalars)] + sp, if keep then [(ps[0].0, TableRowsOf(ps[0].1))] + tp else tp))
  }

  /** The split loop of setoverlayconfig, name by name. */
  function Split(t: Tree): Result<(Tree, TableTree)>
    decreases |t|
  {
    if t == [] then Ok(([], []))
    else
      match SplitPaths(t[0].1)
      case Err(e) => Err(e)
      case Ok((sp, tp)) =>
        match Split(t[1..])
        case Err(e) => Err(e)
        case Ok((st, tt)) => Ok(([(t[0].0, sp)] + st, [(t[0].0, tp)] + tt))
  }

  // ------------------------------------------- what the split should yield

  /** The first path, in iteration order, with two or more scalar fields. */
  function ClashIn(ps: PathMap): Option<string> {
    if ps == [] then None
    else if ScalarCount(ps[0].1) >= 2 then Some(ps[0].0)
    else ClashIn(ps[1..])
  }

  function FirstClash(t: Tree): Option<string> {
    if t == [] then None
    else if ClashIn(t[0].1).Some? then ClashIn(t[0].1)
    else FirstClash(t[1..])
  }

  /** Every path of one name, with its scalar fields only. */
  function ScalarPaths(ps: PathMap): (r: PathMap)
    ensures |r| == |ps|
    ensures forall j :: 0 <= j < |ps| ==> r[j] == (ps[j].0, ScalarFields(ps[j].1))
  {
    if ps == [] then [] else [(ps[0].0, ScalarFields(ps[0].1))] + ScalarPaths(ps[1..])
  }

  /** Every name and path, with its scalar fields only. */
  function ScalarPart(t: Tree): (r: Tree)
    ensures |r| == |t|
    ensures forall i :: 0 <= i < |t| ==> r[i] == (t[i].0, ScalarPaths(t[i].1))
  {
    if t == [] then [] else [(t[0].0, ScalarPaths(t[0].1))] + ScalarPart(t[1..])
  }

  /** The paths without any scalar field, as rows. */
  function KeptPaths(ps: PathMap): (r: seq<(string, Rows)>)
    ensures |r| <= |ps|
    ensures forall i :: 0 <= i < |ps| && ScalarCount(ps[i].1) == 0 ==> (ps[i].0, TableRowsOf(ps[i].1)) in r
    ensures forall x :: x in r ==> exists i :: 0 <= i < |ps| && ScalarCount(ps[i].1) == 0 && x == (ps[i].0, TableRowsOf(ps[i].1))
  {
    if ps == [] then []
    else
      var rest := KeptPaths(ps[1..]);
      assert forall i :: 1 <= i < |ps| ==> ps[i] == ps[1..][i - 1];
      if ScalarCount(ps[0].1) == 0 then [(ps[0].0, TableRowsOf(ps[0].1))] + rest else rest
  }

  /** Every name, with only its all-table paths. */
  function TablePart(t: Tree): (r: TableTree)
    ensures |r| == |t|
    ensures forall i :: 0 <= i < |t| ==> r[i] == (t[i].0, KeptPaths(t[i].1))
  {
    if t == [] then [] else [(t[0].0, KeptPaths(t[0].1))] + TablePart(t[1..])
  }

  lemma {:induction false} SplitPathsSpec(ps: PathMap)
    ensures SplitPaths(ps) == if ClashIn(ps).Some? then Err(KeyError(ClashIn(ps).value))
                              else Ok((ScalarPaths(ps), KeptPaths(ps)))
    decreases |ps|
  {
    if ps != [] {
      WalkFieldsCounts(ps[0].1, ps[0].0, [], true);
      assert [] + ScalarFields(ps[0].1) == ScalarFields(ps[0].1);
      SplitPathsSpec(ps[1..]);
    }
  }

  /** The split either raises KeyError on the first path holding two scalar
      fields, or yields exactly the scalar part and the table part. */
  lemma {:induction false} SplitSpec(t: Tree)
    ensures Split(t) == if FirstClash(t).Some? then Err(KeyError(FirstClash(t).value))
                        else Ok((ScalarPart(t), TablePart(t)))
    decreases |t|
  {
    if t != [] {
      SplitPathsSpec(t[0].1);
      SplitSpec(t[1..]);
    }
  }

  /** After a successful split the scalar tree holds no table-valued field,
      and a table path holds nothing but rows. A path with exactly one scalar
      field is left out of the table tree altogether, rows included. */
  lemma SplitSeparates(t: Tree, i: int, j: int)
    requires Split(t).Ok?
    requires 0 <= i < |t| && 0 <= j < |t[i].1|
    ensures FirstClash(t).None? && Split(t).value == (ScalarPart(t), TablePart(t))
    ensures var fs := ScalarPart(t)[i].1[j].1;
            forall k :: 0 <= k < |fs| ==> !fs[k].1.Table?
    ensures ScalarCount(t[i].1[j].1) == 0 ==> (t[i].1[j].0, TableRowsOf(t[i].1[j].1)) in TablePart(t)[i].1
    ensures forall x :: x in TablePart(t)[i].1 ==>
              exists j' :: 0 <= j' < |t[i].1| && ScalarCount(t[i].1[j'].1) == 0 && x == (t[i].1[j'].0, TableRowsOf(t[i].1[j'].1))
  {
    SplitSpec(t);
    var fs := t[i].1[j].1;
    assert ScalarPart(t)[i].1 == ScalarPaths(t[i].1);
    assert ScalarPart(t)[i].1[j].1 == ScalarFields(fs);
    assert TablePart(t)[i].1 == KeptPaths(t[i].1);
  }

  // ------------------------------------------------------------- the passes

  /** The arguments of one set call: set(path, name, data, mkey). */
  datatype SetCall = SetCall(path: string, name: string, mkey: Value, data: Dict)

  /** What one call of the step function does: the state it leaves, and
      whether the status was "success" (or what it raised). */
  datatype Ran<S> = Ran(state: S, status: Result<bool>)

  /** A call that was made: the state it ran on, its status and the state it
      left behind. */
  datatype Attempt<S> = Attempt(call: SetCall, before: S, status: Result<bool>, after: S)

  datatype GroupRun<S> = GroupRun(state: S, trace: seq<Attempt<S>>, result: Result<bool>)

  datatype PassRun<S> = PassRun(state: S, traces: seq<seq<Attempt<S>>>, result: Result<bool>)

  datatype Applied<S> = Applied(state: S, scalarTraces: seq<seq<Attempt<S>>>, tableTraces: seq<seq<Attempt<S>>>, result: Result<bool>)

  /** The state after a group: what its last call left, or `st` when it made
      no call. */
  function Final<S>(st: S, t: seq<Attempt<S>>): S {
    if t == [] then st else t[|t| - 1].after
  }

  /** The calls of one group ran in order, each on the state the previous one
      left, up to and including the first that was not a success; a group
      cut short ends on that call. */
  ghost predicate GroupTrace<S>(run: (S, SetCall) -> Ran<S>, st: S, calls: seq<SetCall>, t: seq<Attempt<S>>)
    decreases |calls|
  {
    if calls == [] then t == []
    else
      && t != []
      && t[0] == Attempt(calls[0], st, run(st, calls[0]).status, run(st, calls[0]).state)
      && (if t[0].status == Ok(true) then GroupTrace(run, t[0].after, calls[1..], t[1..]) else |t| == 1)
  }

  /** GroupTrace position by position: the trace is a prefix of the calls,
      each attempt is `run` on the state the one before left, every call but
      the last was a success, and a trace cut short ends on a call that was
      not. */
  lemma {:induction false} GroupTraceAt<S>(run: (S, SetCall) -> Ran<S>, st: S, calls: seq<SetCall>, t: seq<Attempt<S>>)
    requires GroupTrace(run, st, calls, t)
    ensures |t| <= |calls| && (t == [] <==> calls == [])
    ensures t != [] ==> t[0].before == st
    ensures forall j :: 0 <= j < |t| ==> t[j].call == calls[j] && run(t[j].before, calls[j]) == Ran(t[j].after, t[j].status)
    ensures forall j :: 0 < j < |t| ==> t[j].before == t[j - 1].after
    ensures forall j :: 0 <= j < |t| - 1 ==> t[j].status == Ok(true)
    ensures |t| < |calls| ==> t[|t| - 1].status != Ok(true)
    decreases |calls|
  {
    if calls != [] && t[0].status == Ok(true) {
      GroupTraceAt(run, t[0].after, calls[1..], t[1..]);
      assert forall j :: 1 <= j < |t| ==> t[j] == t[1..][j - 1] && calls[j] == calls[1..][j - 1];
    }
  }

  /** The status of the last call of a group, if it made one. */
  function Ended<S>(t: seq<Attempt<S>>): Option<Result<bool>> {
    if t == [] then None else Some(t[|t| - 1].status)
  }

  /** `restree` after a group: the status of its last call, if it made one. */
  function GroupOutcome<S>(t: seq<Attempt<S>>, restree: bool): bool {
    if t == [] then restree else t[|t| - 1].status == Ok(true)
  }

  /** `restree` after a sequence of groups. */
  function LastOutcome<S>(traces: seq<seq<Attempt<S>>>, restree: bool): bool
    decreases |traces|
  {
    if traces == [] then restree else LastOutcome(traces[1..], GroupOutcome(traces[0], restree))
  }

  /** One inner loop: a failure `break`s out of this group only. */
  function RunGroup<S>(run: (S, SetCall) -> Ran<S>, st: S, calls: seq<SetCall>, restree: bool): (r: GroupRun<S>)
    ensures GroupTrace(run, st, calls, r.trace)
    ensures r.state == Final(st, r.trace)
    ensures r.result == if r.trace == [] then Ok(restree) else r.trace[|r.trace| - 1].status
    decreases |calls|
  {
    if calls == [] then GroupRun(st, [], Ok(restree))
    else
      var o := run(st, calls[0]);
      var at := Attempt(calls[0], st, o.status, o.state);
      match o.status
      case Err(e) => GroupRun(o.state, [at], Err(e))
      case Ok(ok) =>
        if ok then
          var rest := RunGroup(run, o.state, calls[1..], true);
          var t := [at] + rest.trace;
          assert t[0] == at && t[1..] == rest.trace;
          GroupRun(rest.state, t, rest.result)
        else GroupRun(o.state, [at], Ok(false))
  }

  /** Each group's trace follows its calls from the state the group before
      left, and every group but the last ended without an exception. */
  ghost predicate PassTrace<S>(run: (S, SetCall) -> Ran<S>, st: S, groups: seq<seq<SetCall>>, traces: seq<seq<Attempt<S>>>)
    decreases |traces|
  {
    && |traces| <= |groups|
    && (traces != [] ==>
          && GroupTrace(run, st, groups[0], traces[0])
          && (|traces| > 1 ==> Ended(traces[0]).None? || Ended(traces[0]).value.Ok?)
          && PassTrace(run, Final(st, traces[0]), groups[1..], traces[1..]))
  }

  /** The state after a sequence of groups. */
  function PassFinal<S>(st: S, traces: seq<seq<Attempt<S>>>): S
    decreases |traces|
  {
    if traces == [] then st else PassFinal(Final(st, traces[0]), traces[1..])
  }

  /** PassTrace group by group: group i starts from the state the groups
      before it left. */
  lemma {:induction false} PassTraceAt<S>(run: (S, SetCall) -> Ran<S>, st: S, groups: seq<seq<SetCall>>, traces: seq<seq<Attempt<S>>>)
    requires PassTrace(run, st, groups, traces)
    ensures |traces| <= |groups|
    ensures forall i :: 0 <= i < |traces| ==> GroupTrace(run, PassFinal(st, traces[..i]), groups[i], traces[i])
    ensures forall i :: 0 <= i < |traces| - 1 ==> Ended(traces[i]).None? || Ended(traces[i]).value.Ok?
    decreases |traces|
  {
    if traces != [] {
      var mid := Final(st, traces[0]);
      PassTraceAt(run, mid, groups[1..], traces[1..]);
      assert traces[..0] == [];
      forall i | 1 <= i < |traces|
        ensures PassFinal(st, traces[..i]) == PassFinal(mid, traces[1..][..i - 1])
      {
        assert traces[..i][0] == traces[0] && traces[..i][1..] == traces[1..][..i - 1];
      }
      assert forall i :: 1 <= i < |traces| ==> traces[i] == traces[1..][i - 1] && groups[i] == groups[1..][i - 1];
    }
  }

  /** Every attempt of a pass is `run` applied to the state it records. */
  lemma TraceAttempts<S>(run: (S, SetCall) -> Ran<S>, st: S, groups: seq<seq<SetCall>>, traces: seq<seq<Attempt<S>>>)
    requires PassTrace(run, st, groups, traces)
    ensures forall i, j :: 0 <= i < |traces| && 0 <= j < |traces[i]| ==>
              run(traces[i][j].before, traces[i][j].call) == Ran(traces[i][j].after, traces[i][j].status)
  {
    PassTraceAt(run, st, groups, traces);
    forall i | 0 <= i < |traces|
      ensures forall j :: 0 <= j < |traces[i]| ==> run(traces[i][j].before, traces[i][j].call) == Ran(traces[i][j].after, traces[i][j].status)
    {
      GroupTraceAt(run, PassFinal(st, traces[..i]), groups[i], traces[i]);
    }
  }

  /** In a pass whose every group ended without an exception, no call
      raised. */
  lemma PassAttemptsOk<S>(run: (S, SetCall) -> Ran<S>, st: S, groups: seq<seq<SetCall>>, traces: seq<seq<Attempt<S>>>)
    requires PassTrace(run, st, groups, traces)
    requires forall i :: 0 <= i < |traces| ==> Ended(traces[i]).None? || Ended(traces[i]).value.Ok?
    ensures forall i, j :: 0 <= i < |traces| && 0 <= j < |traces[i]| ==> traces[i][j].status.Ok?
  {
    PassTraceAt(run, st, groups, traces);
    forall i | 0 <= i < |traces|
      ensures forall j :: 0 <= j < |traces[i]| ==> traces[i][j].status.Ok?
    {
      GroupTraceAt(run, PassFinal(st, traces[..i]), groups[i], traces[i]);
    }
  }

  /** One pass: every group in order; only an exception stops the pass. */
  function RunGroups<S>(run: (S, SetCall) -> Ran<S>, st: S, groups: seq<seq<SetCall>>, restree: bool): (r: PassRun<S>)
    ensures PassTrace(run, st, groups, r.traces)
    ensures r.state == PassFinal(st, r.traces)
    ensures r.result.Ok? ==> |r.traces| == |groups| && r.result.value == LastOutcome(r.traces, restree)
    ensures r.result.Err? ==> r.traces != [] && Ended(r.traces[|r.traces| - 1]) == Some(r.result)
    ensures r.result.Ok? ==> forall i :: 0 <= i < |r.traces| ==> Ended(r.traces[i]).None? || Ended(r.traces[i]).value.Ok?
    decreases |groups|
  {
    if groups == [] then PassRun(st, [], Ok(restree))
    else
      var g := RunGroup(run, st, groups[0], restree);
      if g.result.Err? then PassRun(g.state, [g.trace], g.result)
      else
        var rest := RunGroups(run, g.state, groups[1..], g.result.value);
        var traces := [g.trace] + rest.traces;
        assert traces[0] == g.trace && traces[1..] == rest.traces;
        assert GroupOutcome(g.trace, restree) == g.result.value;
        PassRun(rest.state, traces, rest.result)
  }

  /** The scalar pass: one group per name, one call per non-empty path, no
      mkey forced. */
  function PathCalls(name: string, ps: PathMap): (r: seq<SetCall>)
    ensures |r| <= |ps|
    ensures forall j :: 0 <= j < |ps| && ps[j].1 != [] ==> SetCall(name, ps[j].0, Null, ps[j].1) in r
    ensures forall k :: 0 <= k < |r| ==> r[k].path == name && r[k].mkey == Null && r[k].data != []
  {
    if ps == [] then []
    else
      var rest := PathCalls(name, ps[1..]);
      assert forall j :: 1 <= j < |ps| ==> ps[j] == ps[1..][j - 1];
      if ps[0].1 == [] then rest
      else [SetCall(name, ps[0].0, Null, ps[0].1)] + rest
  }

  /** Every call of the scalar pass sets one non-empty path of the name with
      that path's own fields. */
  lemma {:induction false} PathCallsFromPaths(name: string, ps: PathMap, k: int)
    requires 0 <= k < |PathCalls(name, ps)|
    ensures exists j :: 0 <= j < |ps| && ps[j].1 != [] && PathCalls(name, ps)[k] == SetCall(name, ps[j].0, Null, ps[j].1)
    decreases |ps|
  {
    var rest := PathCalls(name, ps[1..]);
    if ps[0].1 != [] && k == 0 {
      assert PathCalls(name, ps)[0] == SetCall(name, ps[0].0, Null, ps[0].1);
    } else {
      var k' := if ps[0].1 == [] then k else k - 1;
      assert PathCalls(name, ps)[k] == rest[k'];
      PathCallsFromPaths(name, ps[1..], k');
      var j :| 0 <= j < |ps[1..]| && ps[1..][j].1 != [] && rest[k'] == SetCall(name, ps[1..][j].0, Null, ps[1..][j].1);
      assert ps[1..][j] == ps[j + 1];
    }
  }

  /** The scalar pass keeps the order of the paths. */
  lemma {:induction false} PathCallsAppend(name: string, a: PathMap, b: PathMap)
    ensures PathCalls(name, a + b) == PathCalls(name, a) + PathCalls(name, b)
    decreases |a|
  {
    if a == [] {
      assert a + b == b;
    } else {
      assert (a + b)[0] == a[0] && (a + b)[1..] == a[1..] + b;
      PathCallsAppend(name, a[1..], b);
    }
  }

  function ScalarGroups(s: Tree): (r: seq<seq<SetCall>>)
    ensures |r| == |s|
    ensures forall i :: 0 <= i < |s| ==> r[i] == PathCalls(s[i].0, s[i].1)
  {
    seq(|s|, i requires 0 <= i < |s| => PathCalls(s[i].0, s[i].1))
  }

  /** The table pass: one group per (name, path), one call per row with the
      row's key forced as mkey. */
  function RowCalls(name: string, path: string, rows: Rows): (r: seq<SetCall>)
    ensures |r| == |rows|
    ensures forall k :: 0 <= k < |rows| ==> r[k] == SetCall(name, path, Str(rows[k].0), rows[k].1)
  {
    seq(|rows|, k requires 0 <= k < |rows| => SetCall(name, path, Str(rows[k].0), rows[k].1))
  }

  function NameGroups(name: string, paths: seq<(string, Rows)>): (r: seq<seq<SetCall>>)
    ensures |r| == |paths|
    ensures forall j :: 0 <= j < |paths| ==> r[j] == RowCalls(name, paths[j].0, paths[j].1)
  {
    seq(|paths|, j requires 0 <= j < |paths| => RowCalls(name, paths[j].0, paths[j].1))
  }

  function TableGroups(tt: TableTree): seq<seq<SetCall>> {
    if tt == [] then [] else NameGroups(tt[0].0, tt[0].1) + TableGroups(tt[1..])
  }

  lemma {:induction false} LastOutcomeAppend<S>(a: seq<seq<Attempt<S>>>, b: seq<seq<Attempt<S>>>, restree: bool)
    ensures LastOutcome(a + b, restree) == LastOutcome(b, LastOutcome(a, restree))
    decreases |a|
  {
    if a == [] {
      assert a + b == b;
    } else {
      assert (a + b)[1..] == a[1..] + b;
      LastOutcomeAppend(a[1..], b, GroupOutcome(a[0], restree));
    }
  }

  /** With no call made, the outcome is the initial value. */
  lemma {:induction false} LastOutcomeOfNothing<S>(traces: seq<seq<Attempt<S>>>, restree: bool)
    requires forall i :: 0 <= i < |traces| ==> traces[i] == []
    ensures LastOutcome(traces, restree) == restree
    decreases |traces|
  {
    if traces != [] {
      LastOutcomeOfNothing(traces[1..], restree);
    }
  }

  /** The two passes of setoverlayconfig: the scalar pass, then, unless it
      raised, the table pass from the state it left with the flag it left. */
  function TwoPasses<S>(run: (S, SetCall) -> Ran<S>, st: S, sg: seq<seq<SetCall>>, tg: seq<seq<SetCall>>): (r: Applied<S>)
    ensures r.scalarTraces == RunGroups(run, st, sg, false).traces
    ensures PassTrace(run, st, sg, r.scalarTraces)
    ensures PassTrace(run, PassFinal(st, r.scalarTraces), tg, r.tableTraces)
    ensures r.state == PassFinal(PassFinal(st, r.scalarTraces), r.tableTraces)
    ensures RunGroups(run, st, sg, false).result.Err? ==>
              r.tableTraces == [] && r.result == RunGroups(run, st, sg, false).result
    ensures r.result.Ok? ==> r.result.value == LastOutcome(r.scalarTraces + r.tableTraces, false)
    ensures r.result.Ok? ==>
              && (forall i, j :: 0 <= i < |r.scalarTraces| && 0 <= j < |r.scalarTraces[i]| ==> r.scalarTraces[i][j].status.Ok?)
              && (forall i, j :: 0 <= i < |r.tableTraces| && 0 <= j < |r.tableTraces[i]| ==> r.tableTraces[i][j].status.Ok?)
    ensures r.result.Err? ==>
              var all := r.scalarTraces + r.tableTraces;
              all != [] && Ended(all[|all| - 1]) == Some(r.result)
    ensures r.result.Ok? ==> |r.scalarTraces| == |sg| && |r.tableTraces| == |tg|
  {
    var p1 := RunGroups(run, st, sg, false);
    if p1.result.Err? then
      assert p1.traces + [] == p1.traces;
      Applied(p1.state, p1.traces, [], p1.result)
    else
      var p2 := RunGroups(run, p1.state, tg, p1.result.value);
      if p2.result.Ok? then
        LastOutcomeAppend(p1.traces, p2.traces, false);
        PassAttemptsOk(run, st, sg, p1.traces);
        PassAttemptsOk(run, p1.state, tg, p2.traces);
        Applied(p2.state, p1.traces, p2.traces, p2.result)
      else
        var all := p1.traces + p2.traces;
        assert all[|all| - 1] == p2.traces[|p2.traces| - 1];
        Applied(p2.state, p1.traces, p2.traces, p2.result)
  }

  /** setoverlayconfig over an abstract set: split, scalar pass, table pass.
      The scalar pass runs first and in full; the table pass starts from the
      state it left. The result is an exception iff a set raised, and
      otherwise the status of the last set that ran, False if none ran. */
  function SetOverlayConfig<S>(run: (S, SetCall) -> Ran<S>, st: S, tree: Tree): (r: Applied<S>)
    ensures Split(tree).Err? ==> r == Applied(st, [], [], Err(Split(tree).error))
    ensures Split(tree).Ok? ==> PassTrace(run, st, ScalarGroups(Split(tree).value.0), r.scalarTraces)
    ensures Split(tree).Ok? ==> r.scalarTraces == RunGroups(run, st, ScalarGroups(Split(tree).value.0), false).traces
    ensures Split(tree).Ok? ==> PassTrace(run, PassFinal(st, r.scalarTraces), TableGroups(Split(tree).value.1), r.tableTraces)
    ensures r.state == PassFinal(PassFinal(st, r.scalarTraces), r.tableTraces)
    ensures Split(tree).Ok? && RunGroups(run, st, ScalarGroups(Split(tree).value.0), false).result.Err? ==>
              r.tableTraces == [] && r.result == RunGroups(run, st, ScalarGroups(Split(tree).value.0), false).result
    ensures r.result.Ok? ==> r.result.value == LastOutcome(r.scalarTraces + r.tableTraces, false)
    ensures r.result.Ok? ==>
              && (forall i, j :: 0 <= i < |r.scalarTraces| && 0 <= j < |r.scalarTraces[i]| ==> r.scalarTraces[i][j].status.Ok?)
              && (forall i, j :: 0 <= i < |r.tableTraces| && 0 <= j < |r.tableTraces[i]| ==> r.tableTraces[i][j].status.Ok?)
    ensures r.result.Err? && Split(tree).Ok? ==>
              var all := r.scalarTraces + r.tableTraces;
              all != [] && Ended(all[|all| - 1]) == Some(r.result)
    ensures r.result.Ok? ==> |r.scalarTraces| == |ScalarGroups(Split(tree).value.0)|
                             && |r.tableTraces| == |TableGroups(Split(tree).value.1)|
  {
    match Split(tree)
    case Err(e) => Applied(st, [], [], Err(e))
    case Ok((scalars, tables)) => TwoPasses(run, st, ScalarGroups(scalars), TableGroups(tables))
  }

  /** One set call of setoverlayconfig, with the check that the reply's
      status field reads "success". */
  function SetAndCheck(a: Appliance, vdom: Option<string>, c: Conn, call: SetCall): (r: Ran<Conn>)
    ensures Later(c, r.state)
    ensures var s := Set(c, a, call.path, call.name, call.data, call.mkey, vdom, Null);
            && r.state == s.conn
            && (s.result.Err? ==> r.status == Err(s.result.error))
            && (s.result.Ok? && Field(s.result.value, "status").Err? ==>
                  r.status == Err(Field(s.result.value, "status").error))
            && (s.result.Ok? && Field(s.result.value, "status").Ok? ==>
                  r.status == Ok(Field(s.result.value, "status").value == Str("success")))
  {
    var s := Set(c, a, call.path, call.name, call.data, call.mkey, vdom, Null);
    match s.result
    case Err(e) => Ran(s.conn, Err(e))
    case Ok(res) =>
      match Field(res, "status")
      case Err(e) => Ran(s.conn, Err(e))
      case Ok(status) => Ran(s.conn, Ok(status == Str("success")))
  }

  /** SetAndCheck as the step function of the passes. */
  function Runner(a: Appliance, vdom: Option<string>): (Conn, SetCall) -> Ran<Conn> {
    (st: Conn, call: SetCall) => SetAndCheck(a, vdom, st, call)
  }

  /** One step of the passes changes only the jar and appends requests. */
  lemma RunnerLater(a: Appliance, vdom: Option<string>)
    ensures forall st, call :: Later(st, Runner(a, vdom)(st, call).state)
  {
    forall st, call ensures Later(st, Runner(a, vdom)(st, call).state) {
      assert Runner(a, vdom)(st, call) == SetAndCheck(a, vdom, st, call);
    }
  }

  /** A step function that changes only the jar and appends requests keeps
      doing so over a whole group. */
  lemma {:induction false} GroupLater(run: (Conn, SetCall) -> Ran<Conn>, st: Conn, calls: seq<SetCall>, t: seq<Attempt<Conn>>)
    requires forall s, call :: Later(s, run(s, call).state)
    requires GroupTrace(run, st, calls, t)
    ensures Later(st, Final(st, t))
    decreases |calls|
  {
    if calls != [] {
      assert t[0].after == run(st, calls[0]).state;
      if t[0].status == Ok(true) {
        GroupLater(run, t[0].after, calls[1..], t[1..]);
        assert Final(st, t) == Final(t[0].after, t[1..]);
        LaterTrans(st, t[0].after, Final(st, t));
      }
    }
  }

  /** The same over a whole pass. */
  lemma {:induction false} PassLater(run: (Conn, SetCall) -> Ran<Conn>, st: Conn, groups: seq<seq<SetCall>>, traces: seq<seq<Attempt<Conn>>>)
    requires forall s, call :: Later(s, run(s, call).state)
    requires PassTrace(run, st, groups, traces)
    ensures Later(st, PassFinal(st, traces))
    decreases |traces|
  {
    if traces != [] {
      var mid := Final(st, traces[0]);
      GroupLater(run, st, groups[0], traces[0]);
      PassLater(run, mid, groups[1..], traces[1..]);
      LaterTrans(st, mid, PassFinal(st, traces));
    }
  }

  /** setoverlayconfig on the appliance: every recorded attempt is the set
      call and status check on the connection it records, and the overlay
      changes nothing in the session but the cookie jar and the request log,
      to which it only appends. */
  function Apply(c: Conn, a: Appliance, tree: Tree, vdom: Option<string>): (r: Applied<Conn>)
    ensures r == SetOverlayConfig(Runner(a, vdom), c, tree)
    ensures forall i, j :: 0 <= i < |r.scalarTraces| && 0 <= j < |r.scalarTraces[i]| ==>
              SetAndCheck(a, vdom, r.scalarTraces[i][j].before, r.scalarTraces[i][j].call)
              == Ran(r.scalarTraces[i][j].after, r.scalarTraces[i][j].status)
    ensures forall i, j :: 0 <= i < |r.tableTraces| && 0 <= j < |r.tableTraces[i]| ==>
              SetAndCheck(a, vdom, r.tableTraces[i][j].before, r.tableTraces[i][j].call)
              == Ran(r.tableTraces[i][j].after, r.tableTraces[i][j].status)
    ensures Later(c, r.state)
  {
    var run := Runner(a, vdom);
    var r := SetOverlayConfig(run, c, tree);
    match Split(tree)
    case Err(_) => r
    case Ok((scalars, tables)) =>
      var mid := PassFinal(c, r.scalarTraces);
      TraceAttempts(run, c, ScalarGroups(scalars), r.scalarTraces);
      TraceAttempts(run, mid, TableGroups(tables), r.tableTraces);
      RunnerLater(a, vdom);
      PassLater(run, c, ScalarGroups(scalars), r.scalarTraces);
      PassLater(run, mid, TableGroups(tables), r.tableTraces);
      LaterTrans(c, mid, r.state);
      r
  }

  // -------------------------------------------------------------- scenarios

  /** A pass made of one group holding one call runs that call once. */
  lemma RunOneCall<S>(run: (S, SetCall) -> Ran<S>, st: S, call: SetCall, restree: bool)
    ensures RunGroups(run, st, [[call]], restree)
         == PassRun(run(st, call).state, [[Attempt(call, st, run(st, call).status, run(st, call).state)]], run(st, call).status)
  {
    var g := RunGroup(run, st, [call], restree);
    assert [call][1..] == [];
    assert RunGroup(run, run(st, call).state, [], true) == GroupRun(run(st, call).state, [], Ok(true));
    assert g == GroupRun(run(st, call).state, [Attempt(call, st, run(st, call).status, run(st, call).state)], run(st, call).status);
    assert [[call]][1..] == [];
  }

  /** A pass made of one empty group makes no call. */
  lemma RunEmptyGroup<S>(run: (S, SetCall) -> Ran<S>, st: S, restree: bool)
    ensures RunGroups(run, st, [[]], restree) == PassRun(st, [[]], Ok(restree))
  {
    var none: seq<seq<SetCall>> := [[]];
    assert none[1..] == [];
  }


  /** A tree with one scalar setting makes one scalar-pass call and no
      table-pass call, and returns that call's status. */
  lemma OneScalarSetting<S>(run: (S, SetCall) -> Ran<S>, st: S)
    ensures var r := SetOverlayConfig(run, st, [("system", [("global", [("hostname", Str("fw1"))])])]);
            var call := SetCall("system", "global", Null, [("hostname", Str("fw1"))]);
            && r.scalarTraces == [[Attempt(call, st, run(st, call).status, run(st, call).state)]]
            && r.tableTraces == []
            && r.result == run(st, call).status
            && r.state == run(st, call).state
  {
    var fs: Dict := [("hostname", Str("fw1"))];
    var call := SetCall("system", "global", Null, fs);
    SplitOneScalar();
    assert TableGroups([("system", [])]) == [];
    assert PathCalls("system", [("global", fs)]) == [call];
    assert ScalarGroups([("system", [("global", fs)])]) == [[call]];
    RunOneCall(run, st, call, false);
  }
  lemma SplitOneScalar()
    ensures Split([("system", [("global", [("hostname", Str("fw1"))])])])
         == Ok(([("system", [("global", [("hostname", Str("fw1"))])])], [("system", [])]))
  {
    var t: Tree := [("system", [("global", [("hostname", Str("fw1"))])])];
    SplitSpec(t);
    var fs: Dict := [("hostname", Str("fw1"))];
    assert ScalarCount(fs) == 1;
    assert ScalarFields(fs) == fs;
    assert ClashIn(t[0].1) == None;
    assert ScalarPaths(t[0].1) == [("global", fs)];
    assert ScalarPart(t) == [("system", [("global", fs)])];
    assert KeptPaths(t[0].1) == [];
    assert TablePart(t) == [("system", [])];
  }


  /** Two scalar fields under one path raise KeyError on that path before
      any call is made. */
  lemma TwoScalarFieldsRaise<S>(run: (S, SetCall) -> Ran<S>, st: S)
    ensures SetOverlayConfig(run, st, [("firewall", [("address", [("name", Str("addr1")), ("subnet", Str("10.0.0.0/24"))])])])
         == Applied(st, [], [], Err(KeyError("address")))
  {
  }

  /** A path whose fields are all tables is skipped by the scalar pass and
      set once, with the row key as mkey, by the table pass. */
  lemma OneTableRow<S>(run: (S, SetCall) -> Ran<S>, st: S)
    ensures var r := SetOverlayConfig(run, st, [("firewall", [("address", [("addr1", Table([("subnet", Str("10.0.0.0/24"))]))])])]);
            var call := SetCall("firewall", "address", Str("addr1"), [("subnet", Str("10.0.0.0/24"))]);
            && r.scalarTraces == [[]]
            && r.tableTraces == [[Attempt(call, st, run(st, call).status, run(st, call).state)]]
            && r.result == run(st, call).status
            && r.state == run(st, call).state
  {
    var row: Dict := [("subnet", Str("10.0.0.0/24"))];
    var call := SetCall("firewall", "address", Str("addr1"), row);
    SplitOneTable();
    assert ScalarGroups([("firewall", [("address", [])])]) == [[]];
    assert PathCalls("firewall", [("address", [])]) == [];
    assert RowCalls("firewall", "address", [("addr1", row)]) == [call];
    assert NameGroups("firewall", [("address", [("addr1", row)])]) == [[call]];
    assert TableGroups([("firewall", [("address", [("addr1", row)])])]) == [[call]];
    RunEmptyGroup(run, st, false);
    RunOneCall(run, st, call, false);
  }

  lemma SplitOneTable()
    ensures Split([("firewall", [("address", [("addr1", Table([("subnet", Str("10.0.0.0/24"))]))])])])
         == Ok(([("firewall", [("address", [])])], [("firewall", [("address", [("addr1", [("subnet", Str("10.0.0.0/24"))])])])]))
  {
    var row: Dict := [("subnet", Str("10.0.0.0/24"))];
    var fs: Dict := [("addr1", Table(row))];
    var t: Tree := [("firewall", [("address", fs)])];
    SplitSpec(t);
    assert ScalarCount(fs) == 0;
    assert ScalarFields(fs) == [];
    assert TableRowsOf(fs) == [("addr1", row)];
    assert ClashIn(t[0].1) == None;
    assert ScalarPaths(t[0].1) == [("address", [])];
    assert ScalarPart(t) == [("firewall", [("address", [])])];
    assert KeptPaths(t[0].1) == [("address", [("addr1", row)])];
    assert TablePart(t) == [("firewall", [("address", [("addr1", row)])])];
  }
}

=== FILE: percent.dfy ===
/** Percent-encoding of path segments and form fields, as
    urllib.parse.quote does it: the string is encoded as UTF-8 and every
    byte outside the unreserved set of section 2.3 of RFC 3986 (and outside
    the caller's ASCII "safe" characters) becomes a "%XX" triple with
    upper-case hexadecimal digits (section 2.1 of RFC 3986).

    `Unquote` is an independent reference decoder (strict percent-decoding
    followed by strict UTF-8 decoding) used to state the round trip. */
module Percent {
  import opened Results

  type Byte = b: int | 0 <= b < 256

  /** ALPHA / DIGIT / "-" / "." / "_" / "~" (section 2.3 of RFC 3986). */
  predicate Unreserved(c: char) {
    ('A' <= c <= 'Z') || ('a' <= c <= 'z') || ('0' <= c <= '9')
    || c == '-' || c == '.' || c == '_' || c == '~'
  }

  /** gen-delims and sub-delims (section 2.2 of RFC 3986). */
  predicate Reserved(c: char) {
    c in ":/?#[]@!$&'()*+,;="
  }

  predicate UpperHex(c: char) {
    ('0' <= c <= '9') || ('A' <= c <= 'F')
  }

  predicate IsHex(c: char) {
    ('0' <= c <= '9') || ('A' <= c <= 'F') || ('a' <= c <= 'f')
  }

  function HexDigit(d: int): (c: char)
    requires 0 <= d < 16
    ensures UpperHex(c)
  {
    "0123456789ABCDEF"[d]
  }

  function HexValue(c: char): (d: int)
    requires IsHex(c)
    ensures 0 <= d < 16
  {
    if '0' <= c <= '9' then c as int - '0' as int
    else if 'A' <= c <= 'F' then c as int - 'A' as int + 10
    else c as int - 'a' as int + 10
  }

  lemma HexValueOfDigit(d: int)
    requires 0 <= d < 16
    ensures HexValue(HexDigit(d)) == d
  {
  }

  // ---------------------------------------------------------------- UTF-8

  predicate Continuation(b: Byte) { 0x80 <= b < 0xC0 }

  /** The UTF-8 encoding of one Unicode scalar value. */
  function Utf8(c: char): (r: seq<Byte>)
    ensures 1 <= |r| <= 4
    ensures |r| == 1 <==> (c as int) < 0x80
    ensures |r| == 1 ==> r[0] == c as int
  {
    var n := c as int;
    if n < 0x80 then [n]
    else if n < 0x800 then [0xC0 + n / 64, 0x80 + n % 64]
    else if n < 0x1_0000 then [0xE0 + n / 4096, 0x80 + (n / 64) % 64, 0x80 + n % 64]
    else [0xF0 + n / 262144, 0x80 + (n / 4096) % 64, 0x80 + (n / 64) % 64, 0x80 + n % 64]
  }

  function Utf8Encode(s: string): seq<Byte> {
    if s == [] then [] else Utf8(s[0]) + Utf8Encode(s[1..])
  }

  predicate ValidScalar(n: int) {
    (0 <= n < 0xD800) || (0xE000 <= n < 0x11_0000)
  }

  function Cons<T>(x: T, rest: Option<seq<T>>): Option<seq<T>> {
    match rest
    case None => None
    case Some(xs) => Some([x] + xs)
  }

  function ConsAll<T>(xs: seq<T>, rest: Option<seq<T>>): Option<seq<T>> {
    match rest
    case None => None
    case Some(ys) => Some(xs + ys)
  }

  /** Strict UTF-8 decoding: no overlong forms, no surrogates, nothing
      above U+10FFFF. */
  function Utf8Decode(bs: seq<Byte>): Option<string>
    decreases |bs|
  {
    if bs == [] then Some([])
    else if bs[0] < 0x80 then Cons(bs[0] as char, Utf8Decode(bs[1..]))
    else if 0xC0 <= bs[0] < 0xE0 then
      if |bs| < 2 || !Continuation(bs[1]) then None
      else
        var n := (bs[0] as int - 0xC0) * 64 + (bs[1] as int - 0x80);
        if 0x80 <= n && ValidScalar(n) then Cons(n as char, Utf8Decode(bs[2..])) else None
    else if 0xE0 <= bs[0] < 0xF0 then
      if |bs| < 3 || !Continuation(bs[1]) || !Continuation(bs[2]) then None
      else
        var n := (bs[0] as int - 0xE0) * 4096 + (bs[1] as int - 0x80) * 64 + (bs[2] as int - 0x80);
        if 0x800 <= n && ValidScalar(n) then Cons(n as char, Utf8Decode(bs[3..])) else None
    else if 0xF0 <= bs[0] < 0xF8 then
      if |bs| < 4 || !Continuation(bs[1]) || !Continuation(bs[2]) || !Continuation(bs[3]) then None
      else
        var n := (bs[0] as int - 0xF0) * 262144 + (bs[1] as int - 0x80) * 4096
          + (bs[2] as int - 0x80) * 64 + (bs[3] as int - 0x80);
        if 0x1_0000 <= n && ValidScalar(n) then Cons(n as char, Utf8Decode(bs[4..])) else None
    else None
  }

  lemma DivMod64(n: int)
    requires 0 <= n
    ensures n == (n / 64) * 64 + n % 64
    ensures (n / 64) / 64 == n / 4096
    ensures ((n / 64) / 64) / 64 == n / 262144
  {
  }

  /** Decoding the encoding of one character gives that character back. */
  lemma Utf8DecodeChar(c: char, rest: seq<Byte>)
    ensures Utf8Decode(Utf8(c) + rest) == Cons(c, Utf8Decode(rest))
  {
    var n := c as int;
    var bs := Utf8(c) + rest;
    DivMod64(n);
    if n < 0x80 {
      assert bs[1..] == rest;
    } else if n < 0x800 {
      assert bs[2..] == rest;
      assert (bs[0] as int - 0xC0) * 64 + (bs[1] as int - 0x80) == n;
    } else if n < 0x1_0000 {
      assert bs[3..] == rest;
      DivMod64(n / 64);
      assert (bs[0] as int - 0xE0) * 4096 + (bs[1] as int - 0x80) * 64 + (bs[2] as int - 0x80) == n;
    } else {
      assert bs[4..] == rest;
      DivMod64(n / 64);
      DivMod64(n / 4096);
      assert (bs[0] as int - 0xF0) * 262144 + (bs[1] as int - 0x80) * 4096
        + (bs[2] as int - 0x80) * 64 + (bs[3] as int - 0x80) == n;
    }
  }

  lemma {:induction false} Utf8RoundTrip(s: string)
    ensures Utf8Decode(Utf8Encode(s)) == Some(s)
  {
    if s != [] {
      Utf8DecodeChar(s[0], Utf8Encode(s[1..]));
      Utf8RoundTrip(s[1..]);
      assert [s[0]] + s[1..] == s;
    }
  }

  // ------------------------------------------------------- percent-encoding

  /** One byte as a "%XX" triple. */
  function Escape(b: Byte): (t: string)
    ensures |t| == 3 && t[0] == '%' && UpperHex(t[1]) && UpperHex(t[2])
  {
    ['%', HexDigit(b / 16), HexDigit(b % 16)]
  }

  function EscapeAll(bs: seq<Byte>): string {
    if bs == [] then [] else Escape(bs[0]) + EscapeAll(bs[1..])
  }

  /** One character as quote() writes it: kept when it is unreserved or one
      of the ASCII characters in `safe`, escaped byte by byte otherwise. */
  function QuoteChar(c: char, safe: string): string {
    if Unreserved(c) || (c in safe && (c as int) < 0x80) then [c] else EscapeAll(Utf8(c))
  }

  /** urllib.parse.quote(s, safe). */
  function Quote(s: string, safe: string): string {
    if s == [] then [] else QuoteChar(s[0], safe) + Quote(s[1..], safe)
  }

  /** Strict percent-decoding to bytes: "%XX" is one byte, any other ASCII
      character stands for itself. */
  function PercentBytes(t: string): Option<seq<Byte>>
    decreases |t|
  {
    if t == [] then Some([])
    else if t[0] == '%' then
      if |t| >= 3 && IsHex(t[1]) && IsHex(t[2]) then
        Cons(HexValue(t[1]) * 16 + HexValue(t[2]), PercentBytes(t[3..]))
      else None
    else if (t[0] as int) < 0x80 then Cons(t[0] as int, PercentBytes(t[1..]))
    else None
  }

  /** The reference decoder: percent-decoding, then UTF-8 decoding. */
  function Unquote(t: string): Option<string> {
    match PercentBytes(t)
    case None => None
    case Some(bs) => Utf8Decode(bs)
  }

  lemma EscapeBytes(b: Byte, rest: string)
    ensures PercentBytes(Escape(b) + rest) == Cons(b, PercentBytes(rest))
  {
    var t := Escape(b) + rest;
    assert t[0] == '%' && t[1] == HexDigit(b / 16) && t[2] == HexDigit(b % 16);
    assert t[3..] == rest;
    HexValueOfDigit(b / 16);
    HexValueOfDigit(b % 16);
  }

  lemma {:induction false} EscapeAllBytes(bs: seq<Byte>, rest: string)
    ensures PercentBytes(EscapeAll(bs) + rest) == ConsAll(bs, PercentBytes(rest))
  {
    if bs != [] {
      var b := bs[0];
      var tail := EscapeAll(bs[1..]) + rest;
      assert EscapeAll(bs) + rest == Escape(b) + tail;
      EscapeBytes(b, tail);
      assert PercentBytes(EscapeAll(bs) + rest) == Cons(b, PercentBytes(tail));
      EscapeAllBytes(bs[1..], rest);
      assert PercentBytes(tail) == ConsAll(bs[1..], PercentBytes(rest));
      match PercentBytes(rest) {
        case None =>
        case Some(ys) => assert [b] + (bs[1..] + ys) == bs + ys;
      }
    } else {
      assert EscapeAll(bs) + rest == rest;
      match PercentBytes(rest) {
        case None =>
        case Some(ys) => assert bs + ys == ys;
      }
    }
  }

  lemma QuoteCharBytes(c: char, safe: string, rest: string)
    requires '%' !in safe
    ensures PercentBytes(QuoteChar(c, safe) + rest) == ConsAll(Utf8(c), PercentBytes(rest))
  {
    if Unreserved(c) || (c in safe && (c as int) < 0x80) {
      var t := [c] + rest;
      assert t[1..] == rest;
      assert (c as int) < 0x80;
    } else {
      EscapeAllBytes(Utf8(c), rest);
    }
  }

  lemma {:induction false} QuoteBytes(s: string, safe: string)
    requires '%' !in safe
    ensures PercentBytes(Quote(s, safe)) == Some(Utf8Encode(s))
  {
    if s != [] {
      QuoteBytes(s[1..], safe);
      QuoteCharBytes(s[0], safe, Quote(s[1..], safe));
    }
  }

  /** Percent-decoding a quoted string gives the string back. */
  lemma QuoteRoundTrip(s: string, safe: string)
    requires '%' !in safe
    ensures Unquote(Quote(s, safe)) == Some(s)
  {
    QuoteBytes(s, safe);
    Utf8RoundTrip(s);
  }

  // ------------------------------------------------------------- the shape

  /** A string made only of unreserved characters and "%XX" triples. */
  predicate Escaped(t: string)
    decreases |t|
  {
    t == []
    || (Unreserved(t[0]) && Escaped(t[1..]))
    || (|t| >= 3 && t[0] == '%' && UpperHex(t[1]) && UpperHex(t[2]) && Escaped(t[3..]))
  }

  lemma {:induction false} EscapedAppend(a: string, b: string)
    requires Escaped(a) && Escaped(b)
    ensures Escaped(a + b)
    decreases |a|
  {
    if a != [] {
      var t := a + b;
      if Unreserved(a[0]) {
        assert t[0] == a[0];
        assert t[1..] == a[1..] + b;
        EscapedAppend(a[1..], b);
      } else {
        assert |a| >= 3 && a[0] == '%' && UpperHex(a[1]) && UpperHex(a[2]) && Escaped(a[3..]);
        assert t[0] == a[0] && t[1] == a[1] && t[2] == a[2];
        assert t[3..] == a[3..] + b;
        EscapedAppend(a[3..], b);
        assert Escaped(t[3..]);
      }
    } else {
      assert a + b == b;
    }
  }

  lemma {:induction false} EscapeAllEscaped(bs: seq<Byte>)
    ensures Escaped(EscapeAll(bs))
  {
    if bs != [] {
      var e := Escape(bs[0]);
      assert e[3..] == [];
      EscapeAllEscaped(bs[1..]);
      EscapedAppend(e, EscapeAll(bs[1..]));
    }
  }

  /** With no safe characters, quote() yields only unreserved characters and
      "%XX" triples. */
  lemma {:induction false} QuoteEscaped(s: string)
    ensures Escaped(Quote(s, []))
  {
    if s != [] {
      var q := QuoteChar(s[0], []);
      if Unreserved(s[0]) {
        assert q[1..] == [];
      } else {
        EscapeAllEscaped(Utf8(s[0]));
      }
      QuoteEscaped(s[1..]);
      EscapedAppend(q, Quote(s[1..], []));
    }
  }

  /** An escaped string holds no reserved character, so it cannot end a
      path segment or start or split a query. */
  lemma {:induction false} EscapedHasNoReserved(t: string)
    requires Escaped(t)
    ensures forall i :: 0 <= i < |t| ==> !Reserved(t[i])
    decreases |t|
  {
    if t != [] {
      if Unreserved(t[0]) {
        NotReserved(t[0]);
        EscapedHasNoReserved(t[1..]);
        assert forall i :: 1 <= i < |t| ==> t[i] == t[1..][i - 1];
      } else {
        NotReserved(t[0]);
        NotReserved(t[1]);
        NotReserved(t[2]);
        EscapedHasNoReserved(t[3..]);
        assert forall i :: 3 <= i < |t| ==> t[i] == t[3..][i - 3];
      }
    }
  }

  lemma NotReserved(c: char)
    requires Unreserved(c) || UpperHex(c) || c == '%'
    ensures !Reserved(c)
  {
  }

  /** quote(s, safe="") never contains a reserved character and decodes back
      to s. */
  lemma QuoteSegment(s: string)
    ensures Escaped(Quote(s, []))
    ensures forall i :: 0 <= i < |Quote(s, [])| ==> !Reserved(Quote(s, [])[i])
    ensures Unquote(Quote(s, [])) == Some(s)
    ensures '/' !in Quote(s, []) && '?' !in Quote(s, [])
  {
    QuoteEscaped(s);
    EscapedHasNoReserved(Quote(s, []));
    QuoteRoundTrip(s, []);
    assert Reserved('/') && Reserved('?');
  }
}

=== FILE: results.dfy ===
/** Option and Result wrappers, and the exceptions the client can raise.

    A Python method of the client either returns a value or raises; the model
    returns a `Result` whose `Err` case names the exception. */
module Results {

  datatype Option<+T> = None | Some(value: T)

  /** The exceptions raised by the client, or by Python itself inside it. */
  datatype Error =
    | NotLogged          // the library's NotLogged exception
    | InvalidLicense     // the library's InvalidLicense exception (check_session)
    | LicenseRejected    // the plain Exception("invalid license") of formatresponse
    | KeyError(key: string)
    | IntKeyError(index: int)  // KeyError for an int key, as `d[0]` on a dict
    | TypeError          // subscripting a non-mapping, an unhashable key, None + str
    | AttributeError     // calling .json() on an already decoded non-dict result
    | IndexError         // [0] on an empty list or string
    | DecodeError        // the body is not ASCII / not JSON

  datatype Result<+T> = Ok(value: T) | Err(error: Error)
}

=== FILE: session.dfy ===
/** The client object's own state and the decisions made on it alone:
    the session guard, the http/https switch and CSRF header derivation. */
module Session {
  import opened Results
  import opened Values

  /** `_license`: None until logout sets "Valid"; "Invalid" is the only
      value the guards look at. */
  datatype License = Unset | Valid | Invalid

  datatype Cookie = Cookie(name: string, value: string)

  /** The fields of one FortiOSAPI instance that the modelled code reads or
      writes. `headers` are the headers the HTTP session sends with every
      request; `cookies` is its cookie jar. */
  datatype Client = Client(
    host: Option<string>,
    https: bool,
    urlPrefix: Option<string>,
    logged: bool,
    license: License,
    version: Value,
    headers: map<string, string>,
    cookies: seq<Cookie>)

  const CsrfHeader := "X-CSRFTOKEN"

  /** A freshly constructed client. */
  function Init(): (c: Client)
    ensures !c.logged && c.https && c.urlPrefix.None? && c.license == Unset
  {
    Client(None, true, None, false, Unset, Str("Version is set when logged"), map[], [])
  }

  /** check_session: NotLogged is decided before the license is looked at. */
  function CheckSession(c: Client): (r: Result<()>)
    ensures r.Ok? <==> c.logged && c.license != Invalid
    ensures !c.logged ==> r == Err(NotLogged)
    ensures c.logged && c.license == Invalid ==> r == Err(InvalidLicense)
  {
    if !c.logged then Err(NotLogged)
    else if c.license == Invalid then Err(InvalidLicense)
    else Ok(())
  }

  /** https(status): only the exact words "on" and "off" change the mode. */
  function Https(c: Client, status: string): (r: Client)
    ensures r == c.(https := r.https)
    ensures r.https == (if status == "on" then true else if status == "off" then false else c.https)
  {
    if status == "on" then c.(https := true)
    else if status == "off" then c.(https := false)
    else c
  }

  /** The cookie names update_cookie takes the CSRF token from. */
  predicate IsCsrfCookie(name: string) {
    name == "ccsrftoken" || (|name| >= 11 && name[..11] == "ccsrftoken_")
  }

  /** The cookie value without its first and last characters (the token is
      stored between brackets). */
  function StripEnds(v: string): (r: string)
    ensures |v| >= 2 ==> v == [v[0]] + r + [v[|v| - 1]]
    ensures |v| < 2 ==> r == []
  {
    if |v| < 2 then [] else v[1..|v| - 1]
  }

  /** update_cookie: walks the jar in order and, for each CSRF cookie,
      overwrites the X-CSRFTOKEN header with its stripped value. */
  function UpdateCookie(jar: seq<Cookie>, headers: map<string, string>): map<string, string>
    decreases |jar|
  {
    if jar == [] then headers
    else
      var h := if IsCsrfCookie(jar[0].name) then headers[CsrfHeader := StripEnds(jar[0].value)] else headers;
      UpdateCookie(jar[1..], h)
  }

  /** Reference definition: the stripped value of the last CSRF cookie of
      the jar, searched from the end. */
  function LastCsrf(jar: seq<Cookie>): Option<string>
    decreases |jar|
  {
    if jar == [] then None
    else if IsCsrfCookie(jar[|jar| - 1].name) then Some(StripEnds(jar[|jar| - 1].value))
    else LastCsrf(jar[..|jar| - 1])
  }

  function WithCsrf(headers: map<string, string>, token: Option<string>): map<string, string> {
    match token
    case None => headers
    case Some(t) => headers[CsrfHeader := t]
  }

  lemma {:induction false} LastCsrfSnoc(jar: seq<Cookie>, c: Cookie)
    ensures LastCsrf(jar + [c]) == if IsCsrfCookie(c.name) then Some(StripEnds(c.value)) else LastCsrf(jar)
  {
  }

  lemma {:induction false} UpdateCookieSnoc(jar: seq<Cookie>, c: Cookie, headers: map<string, string>)
    ensures UpdateCookie(jar + [c], headers)
         == if IsCsrfCookie(c.name) then UpdateCookie(jar, headers)[CsrfHeader := StripEnds(c.value)]
            else UpdateCookie(jar, headers)
    decreases |jar|
  {
    if jar == [] {
      assert [c][1..] == [];
    } else {
      var h := if IsCsrfCookie(jar[0].name) then headers[CsrfHeader := StripEnds(jar[0].value)] else headers;
      assert (jar + [c])[1..] == jar[1..] + [c];
      UpdateCookieSnoc(jar[1..], c, h);
    }
  }

  /** The last CSRF cookie wins; other cookies are ignored; with no CSRF
      cookie the headers are left as they were. */
  lemma {:induction false} UpdateCookieIsLastCsrf(jar: seq<Cookie>, headers: map<string, string>)
    ensures UpdateCookie(jar, headers) == WithCsrf(headers, LastCsrf(jar))
    decreases |jar|
  {
    if jar != [] {
      var init := jar[..|jar| - 1];
      var c := jar[|jar| - 1];
      assert jar == init + [c];
      UpdateCookieSnoc(init, c, headers);
      LastCsrfSnoc(init, c);
      UpdateCookieIsLastCsrf(init, headers);
    }
  }

  /** Only the X-CSRFTOKEN header is ever touched. */
  lemma UpdateCookieFrame(jar: seq<Cookie>, headers: map<string, string>, k: string)
    requires k != CsrfHeader
    ensures k in UpdateCookie(jar, headers) <==> k in headers
    ensures k in headers ==> UpdateCookie(jar, headers)[k] == headers[k]
  {
  }

  /** A jar holding a CSRF cookie always leaves the header set. */
  lemma UpdateCookieSetsHeader(jar: seq<Cookie>, headers: map<string, string>, i: int)
    requires 0 <= i < |jar| && IsCsrfCookie(jar[i].name)
    ensures CsrfHeader in UpdateCookie(jar, headers)
    ensures LastCsrf(jar).Some?
  {
    UpdateCookieIsLastCsrf(jar, headers);
    LastCsrfFound(jar, i);
  }

  lemma {:induction false} LastCsrfFound(jar: seq<Cookie>, i: int)
    requires 0 <= i < |jar| && IsCsrfCookie(jar[i].name)
    ensures LastCsrf(jar).Some?
    decreases |jar|
  {
    if i != |jar| - 1 && !IsCsrfCookie(jar[|jar| - 1].name) {
      var init := jar[..|jar| - 1];
      assert init[i] == jar[i];
      LastCsrfFound(init, i);
    }
  }
}

=== FILE: urls.dfy ===
/** Endpoint URLs of the two API surfaces: cmdb_url, mon_url and the schema
    query URL. */
module Urls {
  import opened Results
  import opened Values
  import opened Session
  import opened Percent

  datatype Surface = CmdbApi | MonitorApi

  function Root(s: Surface): string {
    match s
    case CmdbApi => "/api/v2/cmdb/"
    case MonitorApi => "/api/v2/monitor/"
  }

  /** A slash and the percent-encoded text of mkey, with no character left
      safe, when mkey is truthy; nothing otherwise. */
  function ItemSegment(mkey: Value): (r: string)
    ensures r == [] <==> !Truthy(mkey)
    ensures r != [] ==> r[0] == '/' && r[1..] == Quote(KeyText(mkey), [])
  {
    if Truthy(mkey) then "/" + Quote(KeyText(mkey), []) else ""
  }

  /** The scope query: "?global=1" for the global partition, "?vdom=<v>"
      (not escaped) for another non-empty vdom, nothing for None or "". */
  function ScopeQuery(vdom: Option<string>): (r: string)
    ensures r == [] <==> vdom.None? || vdom.value == []
    ensures r != [] ==> r[0] == '?'
    ensures vdom == Some("global") ==> r == "?global=1"
    ensures vdom.Some? && vdom.value != [] && vdom.value != "global" ==> r == "?vdom=" + vdom.value
  {
    match vdom
    case None => ""
    case Some(v) => if v == [] then "" else if v == "global" then "?global=1" else "?vdom=" + v
  }

  /** The part of cmdb_url / mon_url shared by both surfaces. The session
      guard runs first; a missing url_prefix is `None + str`. */
  function BuildUrl(c: Client, surface: Surface, path: string, name: string, vdom: Option<string>, mkey: Value): (r: Result<string>)
    ensures CheckSession(c).Err? ==> r == Err(CheckSession(c).error)
    ensures CheckSession(c).Ok? && c.urlPrefix.None? ==> r == Err(TypeError)
    ensures r.Ok? <==> CheckSession(c).Ok? && c.urlPrefix.Some?
    ensures r.Ok? ==> r.value == c.urlPrefix.value + Root(surface) + path + "/" + name + ItemSegment(mkey) + ScopeQuery(vdom)
  {
    match CheckSession(c)
    case Err(e) => Err(e)
    case Ok(_) =>
      match c.urlPrefix
      case None => Err(TypeError)
      case Some(prefix) => Ok(prefix + Root(surface) + path + "/" + name + ItemSegment(mkey) + ScopeQuery(vdom))
  }

  function CmdbUrl(c: Client, path: string, name: string, vdom: Option<string>, mkey: Value): (r: Result<string>)
    ensures r.Ok? <==> c.logged && c.license != Invalid && c.urlPrefix.Some?
    ensures !c.logged ==> r == Err(NotLogged)
    ensures c.logged && c.license == Invalid ==> r == Err(InvalidLicense)
    ensures r.Ok? ==> r.value == c.urlPrefix.value + "/api/v2/cmdb/" + path + "/" + name + ItemSegment(mkey) + ScopeQuery(vdom)
  {
    BuildUrl(c, CmdbApi, path, name, vdom, mkey)
  }

  function MonUrl(c: Client, path: string, name: string, vdom: Option<string>, mkey: Value): (r: Result<string>)
    ensures r.Ok? <==> c.logged && c.license != Invalid && c.urlPrefix.Some?
    ensures !c.logged ==> r == Err(NotLogged)
    ensures c.logged && c.license == Invalid ==> r == Err(InvalidLicense)
    ensures r.Ok? ==> r.value == c.urlPrefix.value + "/api/v2/monitor/" + path + "/" + name + ItemSegment(mkey) + ScopeQuery(vdom)
  {
    BuildUrl(c, MonitorApi, path, name, vdom, mkey)
  }

  // ------------------------------------------------------------ reading back

  /** Index of the first '?', or the length when there is none. */
  function QueryStart(u: string): (i: nat)
    ensures i <= |u|
    ensures forall j :: 0 <= j < i ==> u[j] != '?'
    ensures i < |u| ==> u[i] == '?'
  {
    if u == [] then 0 else if u[0] == '?' then 0 else 1 + QueryStart(u[1..])
  }

  /** What follows the last '/', or the whole string when it has none. */
  function LastSegment(u: string): string
    decreases |u|
  {
    if u == [] then []
    else if u[|u| - 1] == '/' then []
    else LastSegment(u[..|u| - 1]) + [u[|u| - 1]]
  }

  lemma {:induction false} QueryStartAppend(a: string, b: string)
    requires '?' !in a
    ensures QueryStart(a + b) == |a| + QueryStart(b)
  {
    if a != [] {
      assert (a + b)[0] == a[0];
      assert (a + b)[1..] == a[1..] + b;
      QueryStartAppend(a[1..], b);
    } else {
      assert a + b == b;
    }
  }

  lemma {:induction false} LastSegmentAfterSlash(a: string, b: string)
    requires '/' !in b
    ensures LastSegment(a + "/" + b) == b
    decreases |b|
  {
    var u := a + "/" + b;
    if b == [] {
      assert u[|u| - 1] == '/';
    } else {
      var b' := b[..|b| - 1];
      assert u[..|u| - 1] == a + "/" + b';
      assert u[|u| - 1] == b[|b| - 1];
      LastSegmentAfterSlash(a, b');
      assert b' + [b[|b| - 1]] == b;
    }
  }

  /** A string with no '?' followed by a query (empty or opening with '?')
      splits back into the two. */
  lemma SplitAtQuery(base: string, query: string)
    requires '?' !in base
    requires query == [] || query[0] == '?'
    ensures QueryStart(base + query) == |base|
    ensures (base + query)[..|base|] == base && (base + query)[|base|..] == query
  {
  }

  /** Reading a built item URL back: provided the prefix, path and name hold
      no '?', the query is exactly the scope query, and the last path segment
      before it percent-decodes to str(mkey). */
  lemma ItemUrlReadsBack(c: Client, surface: Surface, path: string, name: string, vdom: Option<string>, mkey: Value)
    requires BuildUrl(c, surface, path, name, vdom, mkey).Ok?
    requires '?' !in c.urlPrefix.value + Root(surface) + path + "/" + name
    requires Truthy(mkey)
    ensures var u := BuildUrl(c, surface, path, name, vdom, mkey).value;
            && u[QueryStart(u)..] == ScopeQuery(vdom)
            && Unquote(LastSegment(u[..QueryStart(u)])) == Some(KeyText(mkey))
  {
    var head := c.urlPrefix.value + Root(surface) + path + "/" + name;
    var k := KeyText(mkey);
    var q := Quote(k, []);
    QuoteSegment(k);
    assert ItemSegment(mkey) == "/" + q;
    ItemTail(head, q, ScopeQuery(vdom));
  }

  lemma ItemTail(head: string, q: string, query: string)
    requires '?' !in head && '?' !in q && '/' !in q
    requires query == [] || query[0] == '?'
    ensures var u := head + ("/" + q) + query;
            u[QueryStart(u)..] == query && LastSegment(u[..QueryStart(u)]) == q
  {
    assert head + ("/" + q) == head + "/" + q;
    SplitAtQuery(head + "/" + q, query);
    LastSegmentAfterSlash(head, q);
  }

  /** A collection URL (no mkey) ends, before its query, with "/" + name. */
  lemma CollectionUrlReadsBack(c: Client, surface: Surface, path: string, name: string, vdom: Option<string>)
    requires BuildUrl(c, surface, path, name, vdom, Null).Ok?
    requires '?' !in c.urlPrefix.value + Root(surface) + path + "/" + name
    ensures var u := BuildUrl(c, surface, path, name, vdom, Null).value;
            && u[QueryStart(u)..] == ScopeQuery(vdom)
            && u[..QueryStart(u)] == c.urlPrefix.value + Root(surface) + path + "/" + name
  {
    var head := c.urlPrefix.value + Root(surface) + path + "/" + name;
    var query := ScopeQuery(vdom);
    assert ItemSegment(Null) == [];
    assert BuildUrl(c, surface, path, name, vdom, Null).value == head + [] + query;
    assert head + [] == head;
    SplitAtQuery(head, query);
  }

  // ---------------------------------------------------------- schema query

  /** schema() as written: "?action=schema" when vdom is None, otherwise
      "&action=schema", whether or not cmdb_url opened a query. */
  function SchemaUrlAsWritten(c: Client, path: string, name: string, vdom: Option<string>): (r: Result<string>)
    ensures r.Ok? <==> CmdbUrl(c, path, name, vdom, Null).Ok?
    ensures r.Ok? ==> r.value == CmdbUrl(c, path, name, vdom, Null).value + (if vdom.None? then "?action=schema" else "&action=schema")
  {
    match CmdbUrl(c, path, name, vdom, Null)
    case Err(e) => Err(e)
    case Ok(u) => Ok(u + (if vdom.None? then "?action=schema" else "&action=schema"))
  }

  /** With vdom = "" cmdb_url adds no query (an empty vdom is falsy), so the
      as-written schema URL has no '?' at all and "&action=schema" becomes
      part of the object name; e.g. ".../cmdb/firewall/address&action=schema". */
  lemma SchemaUrlEmptyVdomHasNoQuery(c: Client, path: string, name: string)
    requires CmdbUrl(c, path, name, Some(""), Null).Ok?
    requires '?' !in c.urlPrefix.value + "/api/v2/cmdb/" + path + "/" + name
    ensures var u := SchemaUrlAsWritten(c, path, name, Some("")).value;
            && u == c.urlPrefix.value + "/api/v2/cmdb/" + path + "/" + name + "&action=schema"
            && QueryStart(u) == |u|
  {
  }

  /** The schema URL with the separator chosen from what cmdb_url actually
      produced: "?" when it opened no query, "&" when it did. */
  function SchemaUrl(c: Client, path: string, name: string, vdom: Option<string>): (r: Result<string>)
    ensures r.Ok? <==> CmdbUrl(c, path, name, vdom, Null).Ok?
    ensures r.Ok? ==> r.value == c.urlPrefix.value + "/api/v2/cmdb/" + path + "/" + name + SchemaQuery(vdom)
  {
    match CmdbUrl(c, path, name, vdom, Null)
    case Err(e) => Err(e)
    case Ok(u) =>
      var head := c.urlPrefix.value + "/api/v2/cmdb/" + path + "/" + name;
      var scope := ScopeQuery(vdom);
      assert u == head + scope;
      var r := u + (if scope == [] then "?action=schema" else "&action=schema");
      assert scope == [] ==> r == head + "?action=schema";
      assert scope != [] ==> r == head + (scope + "&action=schema");
      Ok(r)
  }

  function SchemaQuery(vdom: Option<string>): string {
    if ScopeQuery(vdom) == [] then "?action=schema" else ScopeQuery(vdom) + "&action=schema"
  }

  /** The corrected schema URL always carries action=schema as a query
      parameter: its query is the scope query (if any) followed by it, and
      the path before the query is the collection path. It agrees with the
      as-written URL whenever vdom is None or non-empty. */
  lemma SchemaUrlQuery(c: Client, path: string, name: string, vdom: Option<string>)
    requires SchemaUrl(c, path, name, vdom).Ok?
    requires '?' !in c.urlPrefix.value + "/api/v2/cmdb/" + path + "/" + name
    ensures var u := SchemaUrl(c, path, name, vdom).value;
            && u[..QueryStart(u)] == c.urlPrefix.value + "/api/v2/cmdb/" + path + "/" + name
            && u[QueryStart(u)..] == SchemaQuery(vdom)
    ensures (vdom.None? || vdom.value != []) ==> SchemaUrl(c, path, name, vdom) == SchemaUrlAsWritten(c, path, name, vdom)
  {
    var head := c.urlPrefix.value + "/api/v2/cmdb/" + path + "/" + name;
    var u := SchemaUrl(c, path, name, vdom).value;
    var s := SchemaQuery(vdom);
    assert u == head + s;
    QueryStartAppend(head, s);
    assert s[0] == '?';
  }
}

=== FILE: values.dfy ===
/** The dynamically typed values the client handles: decoded JSON bodies,
    YAML configuration trees, request payloads and identity keys.

    A Python dict is an ordered sequence of (key, value) pairs; the order is
    the dict's insertion order, which is the order Python iterates it in. */
module Values {
  import opened Results

  datatype Value =
    | Null                     // None / JSON null
    | Bool(b: bool)
    | Int(i: int)
    | Str(s: string)
    | List(items: seq<Value>)
    | Table(fields: seq<(string, Value)>)

  type Dict = seq<(string, Value)>

  /** The keys of a dict, in iteration order. */
  function Keys(d: Dict): (ks: seq<string>)
    ensures |ks| == |d|
  {
    if d == [] then [] else [d[0].0] + Keys(d[1..])
  }

  /** `d[k]`, with absence as `None`. */
  function Lookup(d: Dict, k: string): (r: Option<Value>)
    ensures r.None? <==> k !in Keys(d)
    ensures r.Some? ==> (k, r.value) in d
  {
    if d == [] then None
    else if d[0].0 == k then Some(d[0].1)
    else Lookup(d[1..], k)
  }

  /** `d[k] = v`: an existing key keeps its place, a new key goes last. */
  function SetField(d: Dict, k: string, v: Value): (r: Dict)
    ensures Lookup(r, k) == Some(v)
    ensures forall k' :: k' != k ==> Lookup(r, k') == Lookup(d, k')
    ensures Keys(r) == if k in Keys(d) then Keys(d) else Keys(d) + [k]
  {
    if d == [] then [(k, v)]
    else if d[0].0 == k then
      var r := [(k, v)] + d[1..];
      assert r[1..] == d[1..];
      assert Keys(r) == Keys(d);
      r
    else
      var rest := SetField(d[1..], k, v);
      var r := [d[0]] + rest;
      assert r[1..] == rest;
      r
  }

  /** Writing back the value a key already holds changes nothing. */
  lemma {:induction false} SetFieldPresent(d: Dict, k: string)
    requires k in Keys(d)
    ensures SetField(d, k, Lookup(d, k).value) == d
  {
    if d[0].0 != k {
      SetFieldPresent(d[1..], k);
    }
  }

  /** Python truthiness. */
  predicate Truthy(v: Value) {
    match v
    case Null => false
    case Bool(b) => b
    case Int(i) => i != 0
    case Str(s) => s != []
    case List(items) => items != []
    case Table(fields) => fields != []
  }

  function DigitChar(d: int): char
    requires 0 <= d < 10
  {
    "0123456789"[d]
  }

  function Digits(n: nat): (r: string)
    ensures r != []
  {
    if n < 10 then [DigitChar(n)] else Digits(n / 10) + [DigitChar(n % 10)]
  }

  /** `str(n)` for an integer. */
  function Decimal(n: int): string {
    if n < 0 then "-" + Digits(-n) else Digits(n)
  }

  /** `str(v)` for a value used as an identity key. Lists and tables would
      print as their Python repr; the model renders them as "". */
  function KeyText(v: Value): string {
    match v
    case Null => "None"
    case Bool(b) => if b then "True" else "False"
    case Int(i) => Decimal(i)
    case Str(s) => s
    case List(_) => ""
    case Table(_) => ""
  }

  /** `v[k]` for a string key: only a dict can be subscripted by a string. */
  function Subscript(v: Value, k: string): (r: Result<Value>)
    ensures r.Ok? <==> v.Table? && k in Keys(v.fields)
    ensures v.Table? && k !in Keys(v.fields) ==> r == Err(KeyError(k))
    ensures !v.Table? ==> r == Err(TypeError)
  {
    match v
    case Table(fields) =>
      (match Lookup(fields, k)
       case Some(x) => Ok(x)
       case None => Err(KeyError(k)))
    case _ => Err(TypeError)
  }

  /** `v[0]`: the first element of a list, the first character of a string;
      a dict (whose keys are strings) has no key 0. */
  function First(v: Value): Result<Value> {
    match v
    case List(items) => if items == [] then Err(IndexError) else Ok(items[0])
    case Str(s) => if s == [] then Err(IndexError) else Ok(Str([s[0]]))
    case Table(_) => Err(IntKeyError(0))
    case _ => Err(TypeError)
  }

  /** The JSON object key a Python dict key turns into under json.dumps;
      lists and dicts are unhashable. */
  function JsonKey(v: Value): Result<string> {
    match v
    case Null => Ok("null")
    case Bool(b) => Ok(if b then "true" else "false")
    case Int(i) => Ok(Decimal(i))
    case Str(s) => Ok(s)
    case List(_) => Err(TypeError)
    case Table(_) => Err(TypeError)
  }
}

=== FILE: wire.dfy ===
/** The HTTP session seen from outside: the requests the client sends and
    the appliance that answers them.

    The appliance is an arbitrary function from the whole history of
    requests (the last one being the request to answer) to a reply, so it
    may keep any state a deterministic server keeps. The transport itself
    (TLS, timeouts, connection reuse) is not modelled. */
module Wire {
  import opened Results
  import opened Values
  import opened Session

  datatype Method = GET | POST | PUT

  datatype Body = NoBody | Json(fields: Dict) | Form(text: string)

  /** One request, with the session headers it was sent with. */
  datatype Request = Request(verb: Method, url: string, params: Value, body: Body, headers: map<string, string>)

  /** One reply: status code, raw content, the content decoded as JSON when
      it decodes (the decoder itself is not modelled), and the cookies it
      sets. */
  datatype Reply = Reply(statusCode: int, content: string, json: Option<Value>, setCookies: seq<Cookie>)

  type Appliance = seq<Request> -> Reply

  /** The client together with every request it has sent so far. */
  datatype Conn = Conn(client: Client, sent: seq<Request>)

  datatype Exchange = Exchange(conn: Conn, reply: Reply)

  /** The state after an operation, and what it returned or raised. */
  datatype Step<T> = Step(conn: Conn, result: Result<T>)

  /** Send one request through the session; the reply's cookies go to the
      jar (cookie replacement rules are the HTTP library's and are left
      out: new cookies are appended). */
  function Send(c: Conn, a: Appliance, verb: Method, url: string, params: Value, body: Body): (x: Exchange)
    ensures x.conn.sent == c.sent + [Request(verb, url, params, body, c.client.headers)]
    ensures x.conn.client == c.client.(cookies := c.client.cookies + x.reply.setCookies)
    ensures x.reply == a(x.conn.sent)
  {
    var sent := c.sent + [Request(verb, url, params, body, c.client.headers)];
    var reply := a(sent);
    Exchange(Conn(c.client.(cookies := c.client.cookies + reply.setCookies), sent), reply)
  }

  /** Every field but the cookie jar is the same. */
  predicate SameSession(x: Client, y: Client) {
    y == x.(cookies := y.cookies)
  }

  /** `d` is `c` after some more requests, with only the jar changed. */
  predicate Later(c: Conn, d: Conn) {
    SameSession(c.client, d.client) && |c.sent| <= |d.sent| && d.sent[..|c.sent|] == c.sent
  }

  lemma LaterTrans(c: Conn, d: Conn, e: Conn)
    requires Later(c, d) && Later(d, e)
    ensures Later(c, e)
  {
  }
}
